=== FILE: README.md ===
# Calculator engine of Calc, in Dafny

This project models the calculator engine in `App.js`. The engine is the
`CalculatorProvider` React provider and the export texts that the history screen
builds from its state.

- **Input accumulator** (module `Calculator`):
  - The two strings `display` and `expression`, the history, the precision and the angle unit.
  - The handlers `appendToExpression`, `deleteLast`, `clear`, `calculate`, `addToHistory`,
    `clearHistory` and the two setters.
  - The state is a `datatype State`. Each handler is a function from one `State` to the next.
  - The class `Calculator.Provider` has the provider's fields. Each of its methods is proved to
    move its fields exactly as that function does.
  - Each handler is one transition. The setters it calls take effect together, and the handler
    reads the state it was created with. `appendToExpression` after a failure calls `clear()`, but
    its own setters overwrite that, so the new expression is built from the expression the handler
    saw.
- **Rewrite of `evaluateExpression`** (modules `Text`, `Rewrite`, `Keypad`):
  - The source makes ten global literal replacements, and three more in degrees mode.
  - In degrees mode it counts the injected conversion factors and appends one `)` per injection.
  - `Text.ReplaceAll` is JavaScript's `replace(/pat/g, rep)` for a literal pattern. It scans left
    to right, and its matches do not overlap.
  - `Rewrite.Rewritten` is the text handed to the host.
  - `Keypad` describes the keys of the calculator screen. For every key sequence it computes the
    host text exactly.
  - The final `eval`, the NaN/infinity test and the rounding form one host function. That function
    takes the rewritten text and the precision and returns either the result text or `None`.
- **History and its export** (module `History`):
  - The history is bounded and newest first.
  - On the web the download produces a CSV text. On other platforms it produces a summary message,
    cut to 500 characters.

Properties proved:
- **The display invariant:** every handler preserves it. The display equals the expression, or the
  expression is empty and the display is `0` or `Error`.
- **Deleting undoes appending** one character, to an expression other than `0`.
- **A lone `0` is replaced:** when the expression is exactly `0`, the next appended text replaces
  it. So typing `0` then `×` gives `×`.
- **History bound and order:** after any sequence of additions, the history is the newest 20
  records, newest first.
- **CSV round trip:** the CSV text reads back to the records' fields when no field holds a quote or
  a line break. Quotes are not doubled, so a field that holds them makes the text ambiguous.
- **What a typed expression reaches the host as:**
  - The rewrite leaves no `π`, `e`, `×` or `÷`.
  - Plain arithmetic passes through unchanged.
  - The rewrite never changes the number of `(`.
  - In degrees mode it adds one `)` per trigonometric call and no `(`. So the balanced `sin(90)`
    reaches the host as `Math.sin(Math.PI/180*90))`, which has one `)` too many.

Four behaviours of App.js worth knowing:
- **Degrees mode** (App.js:103-111): the injected factor opens no parenthesis, so each appended `)`
  closes the trigonometric call's own `(`. A call the user closed reaches the host with one `)` too
  many (`Keypad.DegreesSinNinetyUnbalanced`). A call left open reaches it balanced
  (`Keypad.DegreesOpenSinNinetyBalanced`).
- **Deleting after a failure** (App.js:144-150): `deleteLast` on an empty expression changes
  nothing, so an `Error` display stays until a key appends something (`Calculator.DeleteMeans`).
- **Zero replacement** (App.js:156): any appended text replaces an expression that is exactly `0`,
  an operator as much as a digit (`Calculator.ZeroReplacedByNextKey`). So `0.5` typed on an empty
  expression reaches the host as `.5` (`Calculator.ZeroPointFive`), and leading `0` keys drop out
  of every typed expression (`Calculator.TypedSignificant`).
- **Zero, a key, then delete** (App.js:144-159): the key replaced the `0`, so deleting it leaves
  an empty expression and display `0` (`Calculator.DeleteAfterZeroReplaced`).

## Model

| member | source | states |
|---|---|---|
| `Calculator.InitialInvariant` | App.js:67-71 | the provider starts with display `0`, an empty expression and an empty history, which satisfies the display invariant |
| `Calculator.HandlersKeepInvariant` | App.js:73-159 | clear, delete, append, record, clear-history and calculate each keep the display consistent with the expression and the history at no more than 20 records |
| `Calculator.AppendMeans` | App.js:152-159 | the display shows the new expression; an expression that is exactly `0` becomes the value, any other is followed by the value; history and settings are unchanged |
| `Calculator.DeleteMeans` | App.js:144-150 | a non-empty expression loses exactly its last character and the display shows the rest or `0`; an empty expression changes nothing, even an `Error` display |
| `Calculator.DeleteUndoesAppend` | App.js:144-159 | deleting a character just appended to an expression other than `0` restores that expression (display `0` when it is empty) |
| `Calculator.DeleteAfterZeroReplaced` | App.js:144-159 | a character appended to the expression `0` replaces it, so deleting it leaves an empty expression with display `0` |
| `Calculator.CalculateMeans` | App.js:124-137 | empty expression: no change; success: display and expression become the result and one record with the old expression and the result goes in front of the history, bounded at 20; failure: display `Error`, empty expression, same history |
| `Calculator.TypedSpells` | App.js:152-159 | keys pressed on an empty expression, not starting with `0`, build the concatenation of their values |
| `Calculator.ZeroReplacedByNextKey` | App.js:156 | a `0` pressed on an empty expression is replaced by the next key's value |
| `Calculator.LeadingZeroDropped` | App.js:156 | a `0` typed first on an empty expression leaves no trace once any other key follows |
| `Calculator.TypedSignificant` | App.js:152-159 | typing any keys on an empty expression ends in the same state as typing them without their leading `0` keys, a last lone `0` kept |
| `Calculator.TypedExpression` | App.js:152-159 | any keys typed on an empty expression build the concatenation of the values of those significant keys; history and settings are unchanged |
| `Calculator.ZeroPointFive` | App.js:156 | `0.5` typed on a fresh calculator builds `.5` |
| `Calculator.TypedSubmission` | App.js:91-112 | any keys typed on an empty expression reach the host as the host syntax of their significant keys in radians mode, and as their degree syntax plus one `)` per trigonometric key in degrees mode |
| `Calculator.Provider.constructor` | App.js:67-71 | initial fields: display `0`, empty expression and history, precision 6, radians |
| `Calculator.Provider.AddToHistory` | App.js:73-83 | the history becomes the new record in front of the first 19 old ones; the invariant is kept |
| `Calculator.Provider.ClearHistory` | App.js:85-87 | the history becomes empty, nothing else changes |
| `Calculator.Provider.EvaluateExpression` | App.js:89-122 | the loop that appends the counted `)` hands the host exactly the rewritten text at the current precision and angle unit |
| `Calculator.Provider.Calculate` | App.js:124-137 | the fields move as `Calculated` says: unchanged, result published and recorded, or `Error` |
| `Calculator.Provider.Clear` | App.js:139-142 | display `0`, empty expression, history and settings unchanged |
| `Calculator.Provider.DeleteLast` | App.js:144-150 | the fields move as `Deleted` says |
| `Calculator.Provider.AppendToExpression` | App.js:152-159 | the fields move as `Appended` says, from the expression seen before the `Error` display is cleared |
| `Calculator.Provider.SetPrecision` | App.js:70 | only the precision changes |
| `Calculator.Provider.SetIsRadians` | App.js:71 | only the angle unit changes |
| `Rewrite.NoKeypadSymbolsLeft` | App.js:91-101 | after the rewrite, in either angle mode, no `π`, `e`, `×` or `÷` is left |
| `Rewrite.PlainArithmeticUnchanged` | App.js:91-112 | text made only of digits, `.`, `+`, `-`, `^` and parentheses is handed to the host unchanged in both modes |
| `Rewrite.ParenthesisCounts` | App.js:91-112 | the number of `(` never changes; in radians mode neither does the number of `)`; in degrees mode the text gains exactly one `)` per injected conversion factor, all at the end |
| `Text.ClosersCount` | App.js:109-111 | the loop's `n` appended characters are `n` closing and no opening parentheses |
| `Keypad.RadiansRewriteTyped` | App.js:91-101 | any sequence of keys is rewritten in radians mode to the keys' host syntax one after the other |
| `Keypad.DegreesRewriteTyped` | App.js:91-112 | any sequence of keys is rewritten in degrees mode to the keys' host syntax with the conversion factor after each trigonometric call, followed by one `)` per trigonometric key |
| `Keypad.DegreesSinNinety` | App.js:103-112 | `sin(90)` in degrees mode reaches the host as `Math.sin(Math.PI/180*90))` |
| `Keypad.DegreesSinNinetyUnbalanced` | App.js:103-111 | that text has one more `)` than `(`, although `sin(90)` is balanced |
| `Keypad.DegreesOpenSinNinety` | App.js:103-112 | `sin(90` with the call left open reaches the host in degrees mode as `Math.sin(Math.PI/180*90)` |
| `Keypad.DegreesOpenSinNinetyBalanced` | App.js:103-111 | that text has as many `)` as `(`: the appended `)` closes the call's own `(` |
| `History.PrependedMeans` | App.js:80-82 | the new record is first, the old ones follow in order, the length is the smaller of n+1 and 20 |
| `History.AddedAllNewestFirst` | App.js:80-82 | after any sequence of additions the history is the first 20 of: the added records newest first, then the history before them |
| `History.AddedAllBounded` | App.js:80-82 | additions never take the history past 20 records, and do not drop any while it has room |
| `History.CsvRoundTrip` | App.js:352-357 | reading the CSV text of a non-empty history back gives the header and every record's three fields in history order, when no field holds a quote or a line break |
| `History.CsvTextLines` | App.js:352-357 | the CSV text is the header line followed by one line per record |
| `History.CsvQuotesAmbiguous` | App.js:354-356 | embedded quotes are not doubled, so two records with different fields export the same line |
| `History.Truncated` | App.js:379 | text of at most 500 characters is kept whole; a longer one keeps its first 500 characters followed by `...` |
| `History.SummaryShows` | App.js:375-379 | the message is the intro followed by the first characters of the history text, up to 500, and ends in `...` exactly when the history text is longer |
| `History.SummaryWhole` | App.js:375-379 | a history whose summary fits in 500 characters is shown whole, one line per record |
| `History.ExportedMeans` | App.js:340-380 | an empty history exports nothing; a non-empty one gives the web a CSV file and other platforms a message; the web CSV reads back to every record's fields when no field holds a quote or line break; the native message is the intro, then the history text up to 500 characters, then `...` exactly when the text is longer |

## Left out

- The host evaluation (`eval`, `isNaN`, `isFinite`, `toFixed`, `Number`, `toString`) is a function parameter. It maps the rewritten text and the precision to the result text or to a failure. Floating point, the XOR meaning of `^` under `eval` and the accuracy of the degree conversion are not modelled.
- `Date.now()` ids and `toLocaleString()` timestamps are parameters of the handlers that record history. Ids are not unique: two records made in the same millisecond share one, and the model claims nothing about uniqueness.
- React plumbing (`useState`, `useCallback`, `useMemo`, the context value) is not modelled. Each handler is one atomic transition.
- Theming, the screens and their rendering, tab navigation and styles are not part of this model.
- `Alert`, `window.confirm`, `window.alert`, the DOM download link, its file name and `encodeURIComponent` with the `data:` prefix are not modelled. Nor are the fixed notices handed to `window.alert` and `Alert.alert` or the `History Download` title; `NoHistory` stands for the empty-history notice. Only the CSV text handed to `encodeURIComponent` and the native `Alert.alert` message are.
- `History.Truncated`: it counts characters, while `substring` and `length` count UTF-16 code units. The two differ only for characters outside the Basic Multilingual Plane.
- `Calculator.Deleted`: it drops one character, while `slice(0, -1)` drops one UTF-16 code unit. No key, result or history expression holds a character outside the Basic Multilingual Plane, where the two would differ.
- `Calculator.Provider.SetPrecision`: the precision is any natural number, not only the values the settings screen offers.
- The settings screen's toggle (`setIsRadians(prev => !prev)`) is not modelled. The plain assignment `Calculator.Provider.SetIsRadians` covers its effect.

=== FILE: calculator.dfy ===
/** `CalculatorProvider` (App.js:66-180): the display, the expression being typed,
    the history and the two settings, with the handlers the screens call. Each
    handler is one state transition: the setters it calls take effect together,
    and the handler reads the state it was created with. */
module Calculator {
  import opened Text
  import opened Rewrite
  import opened Keypad
  import opened History

  /** The host's evaluation of a rewritten expression at a precision (`eval`,
      the NaN and infinity test, `toFixed`, `Number` and `toString`): the text
      of the rounded result, or `None` when any of it throws. */
  type Host = (string, nat) -> Option<string>

  /** What the display shows after a failed calculation. */
  const ErrorText: string := "Error"

  const DefaultPrecision: nat := 6

  /** The provider's state. */
  datatype State = State(display: string, expression: string, history: seq<Record>,
                         precision: nat, isRadians: bool)

  const Initial: State := State("0", "", [], DefaultPrecision, true)

  /** The display shows the expression, except that an empty expression shows
      `0` or, after a failure, `Error`. */
  predicate Consistent(display: string, expression: string)
  {
    display == expression || (expression == "" && (display == "0" || display == ErrorText))
  }

  predicate Invariant(s: State)
  {
    Consistent(s.display, s.expression) && |s.history| <= Capacity
  }

  /** The text handed to the host for the current expression. */
  function Submitted(s: State): string
  {
    Rewritten(s.expression, s.isRadians)
  }

  /** `clear`. */
  function Cleared(s: State): State
  {
    s.(display := "0", expression := "")
  }

  /** `deleteLast`. */
  function Deleted(s: State): State
  {
    if |s.expression| == 0 then s
    else
      var e := s.expression[..|s.expression| - 1];
      s.(display := if e == "" then "0" else e, expression := e)
  }

  /** `appendToExpression(value)`: an expression that is exactly `0` is replaced,
      any other is extended. The `clear()` it calls after a failure is
      overwritten by its own setters. */
  function Appended(s: State, value: string): State
  {
    var e := if s.expression == "0" then value else s.expression + value;
    s.(display := e, expression := e)
  }

  /** `addToHistory(expr, result)` with the clock's id and timestamp. */
  function Recorded(s: State, expr: string, result: string, id: string, timestamp: string): State
  {
    s.(history := Prepended(s.history, Record(id, expr, result, timestamp)))
  }

  /** `clearHistory`. */
  function HistoryCleared(s: State): State
  {
    s.(history := [])
  }

  /** `calculate`: nothing for an empty expression; otherwise the result replaces
      the expression and is recorded, or the display shows `Error`. */
  function Calculated(s: State, host: Host, id: string, timestamp: string): State
  {
    if s.expression == "" then s
    else
      match host(Submitted(s), s.precision)
      case Some(v) => Recorded(s, s.expression, v, id, timestamp).(display := v, expression := v)
      case None => s.(display := ErrorText, expression := "")
  }

  /** The provider starts in a consistent state. */
  lemma InitialInvariant()
    ensures Invariant(Initial)
    ensures Initial.display == "0" && Initial.expression == "" && Initial.history == []
  {
  }

  /** Every handler keeps the display consistent with the expression and the
      history within its capacity. */
  lemma HandlersKeepInvariant(s: State, value: string, expr: string, result: string,
                              host: Host, id: string, timestamp: string)
    requires Invariant(s)
    ensures Invariant(Cleared(s)) && Invariant(Deleted(s)) && Invariant(Appended(s, value))
    ensures Invariant(Recorded(s, expr, result, id, timestamp)) && Invariant(HistoryCleared(s))
    ensures Invariant(Calculated(s, host, id, timestamp))
  {
    PrependedMeans(s.history, Record(id, expr, result, timestamp));
    if s.expression != "" {
      PrependedMeans(s.history, Record(id, s.expression, result, timestamp));
      match host(Submitted(s), s.precision)
      case Some(v) => PrependedMeans(s.history, Record(id, s.expression, v, timestamp));
      case None =>
    }
  }

  /** Appending shows the new expression, which is the value itself when the
      expression was `0` and the expression followed by the value otherwise;
      nothing else changes. */
  lemma AppendMeans(s: State, value: string)
    ensures var r := Appended(s, value);
      r.display == r.expression &&
      (s.expression == "0" ==> r.expression == value) &&
      (s.expression != "0" ==> r.expression[..|s.expression|] == s.expression &&
                               r.expression[|s.expression|..] == value) &&
      r.history == s.history && r.precision == s.precision && r.isRadians == s.isRadians
  {
  }

  /** Deleting drops exactly the last character of a non-empty expression and
      changes nothing otherwise, not even an `Error` display. */
  lemma DeleteMeans(s: State)
    ensures var r := Deleted(s);
      r.history == s.history && r.precision == s.precision && r.isRadians == s.isRadians &&
      (s.expression == "" ==> r == s) &&
      (s.expression != "" ==>
         r.expression + [s.expression[|s.expression| - 1]] == s.expression &&
         r.display == (if r.expression == "" then "0" else r.expression))
  {
  }

  /** Deleting a character just appended to an expression other than `0` gives
      back the expression; the display is `0` when that expression is empty. */
  lemma DeleteUndoesAppend(s: State, value: string)
    requires s.expression != "0" && |value| == 1
    ensures Deleted(Appended(s, value)) ==
            s.(display := if s.expression == "" then "0" else s.expression)
  {
    assert (s.expression + value)[..|s.expression|] == s.expression;
  }

  /** A character appended to the expression `0` replaces it, so deleting it
      leaves an empty expression, not the `0`. */
  lemma DeleteAfterZeroReplaced(s: State, value: string)
    requires s.expression == "0" && |value| == 1
    ensures Deleted(Appended(s, value)).expression == ""
    ensures Deleted(Appended(s, value)).display == "0"
  {
  }

  /** A calculation does nothing to an empty expression; on success the display
      and the expression both become the result and the history gains exactly
      one record in front; on failure the display shows `Error`, the expression
      is emptied and the history is unchanged. The settings never change. */
  lemma CalculateMeans(s: State, host: Host, id: string, timestamp: string)
    ensures var r := Calculated(s, host, id, timestamp);
      r.precision == s.precision && r.isRadians == s.isRadians &&
      (s.expression == "" ==> r == s) &&
      (s.expression != "" && host(Submitted(s), s.precision).Some? ==>
         var v := host(Submitted(s), s.precision).value;
         r.display == v && r.expression == v &&
         |r.history| == (if |s.history| + 1 <= Capacity then |s.history| + 1 else Capacity) &&
         r.history[0] == Record(id, s.expression, v, timestamp) &&
         (forall i :: 1 <= i < |r.history| ==> r.history[i] == s.history[i - 1])) &&
      (s.expression != "" && host(Submitted(s), s.precision).None? ==>
         r.display == ErrorText && r.expression == "" && r.history == s.history)
  {
    if s.expression != "" && host(Submitted(s), s.precision).Some? {
      PrependedMeans(s.history, Record(id, s.expression, host(Submitted(s), s.precision).value, timestamp));
    }
  }

  // ---------------------------------------------------------------------------
  // Typing on the keypad

  /** The state after appending `values` one after the other. */
  function Entered(s: State, values: seq<string>): State
    decreases |values|
  {
    if values == [] then s else Entered(Appended(s, values[0]), values[1..])
  }

  function Concat(values: seq<string>): string
    decreases |values|
  {
    if values == [] then "" else values[0] + Concat(values[1..])
  }

  /** The values of the keys pressed. */
  function Texts(keys: seq<Key>): (r: seq<string>)
    ensures |r| == |keys| && forall i :: 0 <= i < |keys| ==> r[i] == KeyText(keys[i])
    decreases |keys|
  {
    if keys == [] then [] else [KeyText(keys[0])] + Texts(keys[1..])
  }

  /** The state after pressing `keys` one after the other. */
  function Typed(s: State, keys: seq<Key>): State
  {
    Entered(s, Texts(keys))
  }

  /** Every key appends something, and only the `0` key appends `0`. */
  lemma KeyTextShape(k: Key)
    ensures KeyText(k) != ""
    ensures KeyText(k) == "0" <==> k == Digit(0)
  {
    if k.Digit? && KeyText(k) == "0" {
      assert Digits[k.d] == '0';
    }
  }

  /** Non-empty values appended to an expression other than `0` extend it, as
      long as a first `0` does not stand alone to be replaced. */
  lemma {:induction false} EnteredExtends(s: State, values: seq<string>)
    requires s.expression != "0"
    requires forall i :: 0 <= i < |values| ==> values[i] != ""
    requires s.expression == "" && values != [] ==> values[0] != "0"
    ensures var r := Entered(s, values);
      r.expression == s.expression + Concat(values) &&
      (values != [] ==> r.display == r.expression) &&
      r.history == s.history && r.precision == s.precision && r.isRadians == s.isRadians
    decreases |values|
  {
    if values == [] {
      assert s.expression + Concat(values) == s.expression;
    } else {
      var v := values[0];
      var s' := Appended(s, v);
      assert s'.expression == s.expression + v;
      if s.expression != "" {
        assert |s'.expression| >= 2;
      }
      EnteredExtends(s', values[1..]);
      assert s'.expression + Concat(values[1..]) == s.expression + (v + Concat(values[1..]));
    }
  }

  lemma {:induction false} ConcatTexts(keys: seq<Key>)
    ensures Concat(Texts(keys)) == Spell(keys, KeyText)
    decreases |keys|
  {
    if keys != [] {
      ConcatTexts(keys[1..]);
      assert Texts(keys)[1..] == Texts(keys[1..]);
    }
  }

  /** Keys pressed on an empty expression extend it by their texts, unless the
      first is a `0`, which the next key replaces. */
  lemma TypedSpells(s: State, keys: seq<Key>)
    requires s.expression == "" && keys != [] && keys[0] != Digit(0)
    ensures var r := Typed(s, keys);
      r.expression == Spell(keys, KeyText) && r.display == r.expression &&
      r.history == s.history && r.precision == s.precision && r.isRadians == s.isRadians
  {
    var values := Texts(keys);
    forall i | 0 <= i < |values|
      ensures values[i] != ""
    {
      KeyTextShape(keys[i]);
    }
    KeyTextShape(keys[0]);
    EnteredExtends(s, values);
    ConcatTexts(keys);
  }

  /** A `0` pressed first on an empty expression is replaced by the next key. */
  lemma ZeroReplacedByNextKey(s: State, k: Key)
    requires s.expression == ""
    ensures Typed(s, [Digit(0), k]).expression == KeyText(k)
  {
    var values := Texts([Digit(0), k]);
    assert values == ["0", KeyText(k)];
    var s' := Appended(s, "0");
    assert s'.expression == "0";
    assert Entered(s, values) == Entered(s', [KeyText(k)]);
    assert Entered(s', [KeyText(k)]) == Entered(Appended(s', KeyText(k)), []);
  }

  /** The keys that still show once typing on an empty expression is done: every
      `0` typed in front of another key is replaced by it, so the leading `0`
      keys go, except a last one. */
  function Significant(keys: seq<Key>): (r: seq<Key>)
    ensures |r| <= |keys| && (keys != [] ==> r != [])
    ensures forall i :: 0 <= i < |r| ==> r[i] == keys[|keys| - |r| + i]
    ensures forall i :: 0 <= i < |keys| - |r| ==> keys[i] == Digit(0)
    ensures r != [] && r[0] == Digit(0) ==> r == [Digit(0)]
    decreases |keys|
  {
    if |keys| >= 2 && keys[0] == Digit(0) then Significant(keys[1..]) else keys
  }

  /** A `0` typed first on an empty expression leaves no trace once another key
      follows. */
  lemma LeadingZeroDropped(s: State, rest: seq<Key>)
    requires s.expression == "" && rest != []
    ensures Typed(s, [Digit(0)] + rest) == Typed(s, rest)
  {
    var t := Texts(rest);
    assert Texts([Digit(0)] + rest) == ["0"] + t by {
      assert ([Digit(0)] + rest)[1..] == rest;
    }
    assert (["0"] + t)[1..] == t;
    assert Entered(s, ["0"] + t) == Entered(Appended(s, "0"), t);
    assert Appended(Appended(s, "0"), t[0]) == Appended(s, t[0]);
    assert Entered(Appended(s, "0"), t) == Entered(Appended(s, t[0]), t[1..]);
  }

  /** Typing on an empty expression is typing its significant keys. */
  lemma {:induction false} TypedSignificant(s: State, keys: seq<Key>)
    requires s.expression == ""
    ensures Typed(s, keys) == Typed(s, Significant(keys))
    decreases |keys|
  {
    if |keys| >= 2 && keys[0] == Digit(0) {
      assert keys == [Digit(0)] + keys[1..];
      LeadingZeroDropped(s, keys[1..]);
      TypedSignificant(s, keys[1..]);
    }
  }

  /** Any keys typed on an empty expression build the concatenation of the
      values of their significant keys, and leave the history and the settings
      alone. */
  lemma TypedExpression(s: State, keys: seq<Key>)
    requires s.expression == ""
    ensures var r := Typed(s, keys);
      r.expression == Spell(Significant(keys), KeyText) &&
      r.history == s.history && r.precision == s.precision && r.isRadians == s.isRadians
  {
    var k := Significant(keys);
    TypedSignificant(s, keys);
    if k == [Digit(0)] {
      assert Texts(k) == ["0"];
      assert Entered(s, ["0"]) == Entered(Appended(s, "0"), []);
      assert Spell(k, KeyText) == "0" + Spell([], KeyText);
    } else if k != [] {
      TypedSpells(s, k);
    }
  }

  /** Typing `0.5` on a fresh calculator builds `.5`: the point replaces the
      lone `0`. */
  lemma ZeroPointFive()
    ensures Typed(Initial, [Digit(0), Point, Digit(5)]).expression == ".5"
  {
    var keys := [Digit(0), Point, Digit(5)];
    TypedExpression(Initial, keys);
    var rest := [Point, Digit(5)];
    assert keys[1..] == rest;
    assert Significant(keys) == Significant(rest);
    assert Significant(rest) == rest;
    assert Spell([Point, Digit(5)], KeyText) == "." + ("5" + Spell([], KeyText)) by {
      assert [Point, Digit(5)][1..] == [Digit(5)];
      assert Digits[5] == '5';
    }
  }

  /** Any keys typed on an empty expression reach the host as the host syntax of
      their significant keys in radians mode, and as their degree syntax followed
      by one `)` per trigonometric key in degrees mode. */
  lemma TypedSubmission(s: State, keys: seq<Key>)
    requires s.expression == ""
    ensures var k := Significant(keys);
      s.isRadians ==> Submitted(Typed(s, keys)) == Spell(k, HostText)
    ensures var k := Significant(keys);
      !s.isRadians ==> Submitted(Typed(s, keys)) == Spell(k, DegreeText) + Closers(TrigCount(k))
  {
    var k := Significant(keys);
    var r := Typed(s, keys);
    TypedExpression(s, keys);
    assert Submitted(r) == Rewritten(Spell(k, KeyText), s.isRadians);
    if s.isRadians {
      RadiansRewriteTyped(k);
    } else {
      DegreesRewriteTyped(k);
    }
  }

  // ---------------------------------------------------------------------------
  // The provider

  class Provider {
    var display: string
    var expression: string
    var history: seq<Record>
    var precision: nat
    var isRadians: bool

    function Model(): State
      reads this
    {
      State(display, expression, history, precision, isRadians)
    }

    predicate Valid()
      reads this
    {
      Invariant(Model())
    }

    constructor()
      ensures Model() == Initial && Valid()
    {
      display := "0";
      expression := "";
      history := [];
      precision := DefaultPrecision;
      isRadians := true;
    }

    method AddToHistory(expr: string, result: string, id: string, timestamp: string)
      modifies this
      ensures Model() == Recorded(old(Model()), expr, result, id, timestamp)
      ensures old(Valid()) ==> Valid()
    {
      history := [Record(id, expr, result, timestamp)] + (if |history| <= Capacity - 1 then history else history[..Capacity - 1]);
    }

    method ClearHistory()
      modifies this
      ensures Model() == HistoryCleared(old(Model()))
      ensures old(Valid()) ==> Valid()
    {
      history := [];
    }

    /** The rewrite of `evaluateExpression` followed by the host: in degrees
        mode the counted injections are closed one `)` at a time. */
    method EvaluateExpression(expr: string, host: Host) returns (r: Option<string>)
      ensures r == host(Rewritten(expr, isRadians), precision)
    {
      var processed := Substituted(expr, isRadians);
      if !isRadians {
        var openParens := CountInjections(processed);
        ghost var injected := processed;
        var i := 0;
        while i < openParens
          invariant 0 <= i <= openParens
          invariant processed == injected + Closers(i)
        {
          processed := processed + ")";
          i := i + 1;
        }
      }
      r := host(processed, precision);
    }

    method Calculate(host: Host, id: string, timestamp: string)
      modifies this
      ensures Model() == Calculated(old(Model()), host, id, timestamp)
      ensures old(Valid()) ==> Valid()
    {
      ghost var s := Model();
      if expression != "" {
        var outcome := EvaluateExpression(expression, host);
        match outcome
        case Some(resultStr) =>
          display := resultStr;
          AddToHistory(expression, resultStr, id, timestamp);
          expression := resultStr;
        case None =>
          display := ErrorText;
          expression := "";
      }
      if Invariant(s) {
        HandlersKeepInvariant(s, "", "", "", host, id, timestamp);
      }
    }

    method Clear()
      modifies this
      ensures Model() == Cleared(old(Model()))
      ensures old(Valid()) ==> Valid()
    {
      display := "0";
      expression := "";
    }

    method DeleteLast()
      modifies this
      ensures Model() == Deleted(old(Model()))
      ensures old(Valid()) ==> Valid()
    {
      if |expression| > 0 {
        var newExpr := expression[..|expression| - 1];
        expression := newExpr;
        display := if newExpr == "" then "0" else newExpr;
      }
    }

    method AppendToExpression(value: string)
      modifies this
      ensures Model() == Appended(old(Model()), value)
      ensures old(Valid()) ==> Valid()
    {
      var captured := expression;
      if display == ErrorText {
        Clear();
      }
      var newExpr := if captured == "0" then value else captured + value;
      expression := newExpr;
      display := newExpr;
    }

    method SetPrecision(p: nat)
      modifies this
      ensures Model() == old(Model()).(precision := p)
      ensures old(Valid()) ==> Valid()
    {
      precision := p;
    }

    method SetIsRadians(b: bool)
      modifies this
      ensures Model() == old(Model()).(isRadians := b)
      ensures old(Valid()) ==> Valid()
    {
      isRadians := b;
    }
  }
}

=== FILE: history.dfy ===
/** The calculation history kept by `CalculatorProvider` (App.js:73-87) and the two
    texts the history screen builds from it for export (App.js:340-381). */
module History {
  import opened Text

  /** One past calculation. `id` and `timestamp` come from the clock and the
      locale, so they are whatever the caller supplies. */
  datatype Record = Record(id: string, expression: string, result: string, timestamp: string)

  /** The most records the history keeps. */
  const Capacity: nat := 20

  /** The first `Capacity` entries of `s`, or all of them when there are fewer. */
  function Window<T>(s: seq<T>): (r: seq<T>)
    ensures |r| == if |s| <= Capacity then |s| else Capacity
    ensures forall i :: 0 <= i < |r| ==> r[i] == s[i]
  {
    if |s| <= Capacity then s else s[..Capacity]
  }

  /** The history after `addToHistory`: the new record in front of the first 19
      old ones. */
  function Prepended(h: seq<Record>, rec: Record): seq<Record>
  {
    [rec] + (if |h| <= Capacity - 1 then h else h[..Capacity - 1])
  }

  /** The new record comes first, the old ones follow in their order, the
      oldest beyond the capacity are dropped. */
  lemma PrependedMeans(h: seq<Record>, rec: Record)
    ensures var r := Prepended(h, rec);
      |r| == (if |h| + 1 <= Capacity then |h| + 1 else Capacity) &&
      r[0] == rec &&
      (forall i :: 1 <= i < |r| ==> r[i] == h[i - 1])
  {
  }

  /** Adding a record is keeping the newest `Capacity` of the record followed by
      the old history. */
  lemma PrependedWindow(h: seq<Record>, rec: Record)
    ensures Prepended(h, rec) == Window([rec] + h)
  {
    if |h| > Capacity - 1 {
      assert ([rec] + h)[..Capacity] == [rec] + h[..Capacity - 1];
    }
  }

  /** Cutting a tail to the window before a longer head is put in front of it
      does not change the window. */
  lemma WindowAbsorbs<T>(a: seq<T>, b: seq<T>)
    ensures Window(a + Window(b)) == Window(a + b)
  {
    if |b| > Capacity {
      var w := Window(b);
      assert |a + w| >= Capacity;
      assert (a + w)[..Capacity] == (a + b)[..Capacity];
    }
  }

  /** The history after adding `recs` one after the other. */
  function AddedAll(h: seq<Record>, recs: seq<Record>): seq<Record>
    decreases |recs|
  {
    if recs == [] then h else AddedAll(Prepended(h, recs[0]), recs[1..])
  }

  function Reversed<T>(s: seq<T>): (r: seq<T>)
    ensures |r| == |s| && forall i :: 0 <= i < |s| ==> r[i] == s[|s| - 1 - i]
    decreases |s|
  {
    if s == [] then [] else Reversed(s[1..]) + [s[0]]
  }

  /** Whatever is added, the history is the newest `Capacity` records of all it
      has seen, newest first. */
  lemma {:induction false} AddedAllNewestFirst(h: seq<Record>, recs: seq<Record>)
    requires |h| <= Capacity
    ensures AddedAll(h, recs) == Window(Reversed(recs) + h)
    decreases |recs|
  {
    if recs == [] {
      assert Reversed(recs) + h == h;
    } else {
      var h' := Prepended(h, recs[0]);
      PrependedWindow(h, recs[0]);
      AddedAllNewestFirst(h', recs[1..]);
      WindowAbsorbs(Reversed(recs[1..]), [recs[0]] + h);
      assert Reversed(recs[1..]) + ([recs[0]] + h) == Reversed(recs) + h;
    }
  }

  /** Adding never makes the history longer than its capacity. */
  lemma {:induction false} AddedAllBounded(h: seq<Record>, recs: seq<Record>)
    requires |h| <= Capacity
    ensures |AddedAll(h, recs)| <= Capacity
    ensures |h| + |recs| <= Capacity ==> |AddedAll(h, recs)| == |h| + |recs|
  {
    AddedAllNewestFirst(h, recs);
  }

  // ---------------------------------------------------------------------------
  // Export

  /** What the download button produces: nothing but a notice for an empty
      history, a CSV file on the web and a summary message elsewhere. */
  datatype Export = NoHistory | CsvFile(content: string) | NativeSummary(message: string)

  const CsvHeader: string := "Expression,Result,Timestamp"

  /** One record as a CSV line: each field between double quotes, embedded
      quotes left as they are. */
  function CsvLine(r: Record): string
  {
    "\"" + r.expression + "\",\"" + r.result + "\",\"" + r.timestamp + "\""
  }

  function CsvLines(h: seq<Record>): (r: seq<string>)
    ensures |r| == |h| && forall i :: 0 <= i < |h| ==> r[i] == CsvLine(h[i])
    decreases |h|
  {
    if h == [] then [] else [CsvLine(h[0])] + CsvLines(h[1..])
  }

  /** The text handed to `encodeURIComponent`: the header, then one line per
      record in history order. */
  function CsvText(h: seq<Record>): string
  {
    CsvHeader + "\n" + Join(CsvLines(h), "\n")
  }

  /** The three visible fields of a record. */
  datatype Row = Row(expression: string, result: string, timestamp: string)

  function RowOf(r: Record): Row
  {
    Row(r.expression, r.result, r.timestamp)
  }

  function Rows(h: seq<Record>): (r: seq<Row>)
    ensures |r| == |h| && forall i :: 0 <= i < |h| ==> r[i] == RowOf(h[i])
    decreases |h|
  {
    if h == [] then [] else [RowOf(h[0])] + Rows(h[1..])
  }

  /** Reads a CSV line back: three quoted fields separated by commas. */
  function ParseLine(line: string): Option<Row>
  {
    var p := Split(line, '"');
    if |p| == 7 && p[0] == "" && p[2] == "," && p[4] == "," && p[6] == ""
    then Some(Row(p[1], p[3], p[5]))
    else None
  }

  function ParseLines(lines: seq<string>): Option<seq<Row>>
    decreases |lines|
  {
    if lines == [] then Some([])
    else match (ParseLine(lines[0]), ParseLines(lines[1..]))
      case (Some(row), Some(rows)) => Some([row] + rows)
      case _ => None
  }

  /** Reads a CSV text back: the header line, then one line per record. */
  function ParseCsv(text: string): Option<seq<Row>>
  {
    var lines := Split(text, '\n');
    if lines[0] != CsvHeader then None else ParseLines(lines[1..])
  }

  /** A field that survives the export: no double quote and no line break. */
  predicate Plain(s: string)
  {
    '"' !in s && '\n' !in s
  }

  predicate PlainRecord(r: Record)
  {
    Plain(r.expression) && Plain(r.result) && Plain(r.timestamp)
  }

  /** A CSV line is its fields joined by double quotes, with an empty piece at
      each end and a comma between fields. */
  lemma CsvLinePieces(r: Record)
    ensures CsvLine(r) == Join(["", r.expression, ",", r.result, ",", r.timestamp, ""], "\"")
  {
    JoinSeven("", r.expression, ",", r.result, ",", r.timestamp, "", "\"");
  }

  lemma JoinSeven(a: string, b: string, c: string, d: string, e: string, f: string, g: string, q: string)
    ensures Join([a, b, c, d, e, f, g], q) == a + q + b + q + c + q + d + q + e + q + f + q + g
  {
    var xs := [a, b, c, d, e, f, g];
    assert Join(xs[5..], q) == f + q + g by { assert xs[5..][1..] == [g]; }
    assert Join(xs[4..], q) == e + q + (f + q + g) by { assert xs[4..][1..] == xs[5..]; }
    assert Join(xs[3..], q) == d + q + (e + q + (f + q + g)) by { assert xs[3..][1..] == xs[4..]; }
    assert Join(xs[2..], q) == c + q + (d + q + (e + q + (f + q + g))) by { assert xs[2..][1..] == xs[3..]; }
    assert Join(xs[1..], q) == b + q + (c + q + (d + q + (e + q + (f + q + g)))) by { assert xs[1..][1..] == xs[2..]; }
  }

  lemma CsvLineParses(r: Record)
    requires PlainRecord(r)
    ensures '\n' !in CsvLine(r)
    ensures ParseLine(CsvLine(r)) == Some(RowOf(r))
  {
    var xs := ["", r.expression, ",", r.result, ",", r.timestamp, ""];
    CsvLinePieces(r);
    SplitJoin(xs, '"');
  }

  lemma {:induction false} CsvLinesParse(h: seq<Record>)
    requires forall i :: 0 <= i < |h| ==> PlainRecord(h[i])
    ensures ParseLines(CsvLines(h)) == Some(Rows(h))
    decreases |h|
  {
    if h != [] {
      CsvLineParses(h[0]);
      CsvLinesParse(h[1..]);
      assert CsvLines(h)[1..] == CsvLines(h[1..]);
    }
  }

  lemma CsvLinesSingle(h: seq<Record>)
    requires forall i :: 0 <= i < |h| ==> PlainRecord(h[i])
    ensures forall i :: 0 <= i < |h| ==> '\n' !in CsvLines(h)[i]
  {
    forall i | 0 <= i < |h|
      ensures '\n' !in CsvLines(h)[i]
    {
      CsvLineParses(h[i]);
    }
  }

  /** A line without breaks, a break and lines joined by breaks split back into
      those lines. */
  lemma SplitHeaded(head: string, lines: seq<string>)
    requires lines != [] && '\n' !in head
    requires forall i :: 0 <= i < |lines| ==> '\n' !in lines[i]
    ensures Split(head + "\n" + Join(lines, "\n"), '\n') == [head] + lines
  {
    SplitJoin(lines, '\n');
    SplitAt(head, Join(lines, "\n"), '\n');
  }

  lemma HeaderSingleLine()
    ensures '\n' !in CsvHeader
  {
  }

  /** The header line comes first, then the record lines. */
  lemma CsvTextLines(h: seq<Record>)
    requires h != []
    requires forall i :: 0 <= i < |h| ==> PlainRecord(h[i])
    ensures Split(CsvText(h), '\n') == [CsvHeader] + CsvLines(h)
  {
    CsvLinesSingle(h);
    HeaderSingleLine();
    SplitHeaded(CsvHeader, CsvLines(h));
  }

  /** Reading the CSV text of a non-empty history whose fields hold no quote and
      no line break gives back every record's fields, in history order. */
  lemma CsvRoundTrip(h: seq<Record>)
    requires h != []
    requires forall i :: 0 <= i < |h| ==> PlainRecord(h[i])
    ensures ParseCsv(CsvText(h)) == Some(Rows(h))
  {
    CsvTextLines(h);
    CsvLinesParse(h);
    assert ([CsvHeader] + CsvLines(h))[1..] == CsvLines(h);
  }

  /** Embedded quotes are not doubled (as section 2 of RFC 4180 would have them),
      so two different records can export the same line. */
  lemma CsvQuotesAmbiguous()
    ensures CsvLine(Record("1", "a\",\"b", "c", "t")) == CsvLine(Record("1", "a", "b\",\"c", "t"))
    ensures RowOf(Record("1", "a\",\"b", "c", "t")) != RowOf(Record("1", "a", "b\",\"c", "t"))
  {
  }

  /** The maximum number of characters of the summary shown. */
  const SummaryLimit: nat := 500

  const SummaryIntro: string := "Copy this history:\n\n"

  /** One record as a summary line. */
  function SummaryLine(r: Record): string
  {
    r.expression + " = " + r.result + " (" + r.timestamp + ")"
  }

  function SummaryLines(h: seq<Record>): (r: seq<string>)
    ensures |r| == |h| && forall i :: 0 <= i < |h| ==> r[i] == SummaryLine(h[i])
    decreases |h|
  {
    if h == [] then [] else [SummaryLine(h[0])] + SummaryLines(h[1..])
  }

  /** `historyText`: one summary line per record, in history order. */
  function SummaryText(h: seq<Record>): string
  {
    Join(SummaryLines(h), "\n")
  }

  /** The text cut to the limit, with `...` after it only when something was cut. */
  function Truncated(t: string): (r: string)
    ensures |t| <= SummaryLimit ==> r == t
    ensures |t| > SummaryLimit ==>
      |r| == SummaryLimit + 3 && r[..SummaryLimit] == t[..SummaryLimit] && r[SummaryLimit..] == "..."
  {
    (if |t| <= SummaryLimit then t else t[..SummaryLimit]) + (if |t| > SummaryLimit then "..." else "")
  }

  /** The message of the native export. */
  function Summary(h: seq<Record>): string
  {
    SummaryIntro + Truncated(SummaryText(h))
  }

  /** What the message shows of the history: its first characters, up to the
      limit, and an ellipsis exactly when the history text is longer. */
  lemma SummaryShows(h: seq<Record>)
    ensures var m := Summary(h); var t := SummaryText(h);
      var shown := if |t| <= SummaryLimit then |t| else SummaryLimit;
      |SummaryIntro| + shown <= |m| <= |SummaryIntro| + SummaryLimit + 3 &&
      m[..|SummaryIntro|] == SummaryIntro &&
      m[|SummaryIntro|..|SummaryIntro| + shown] == t[..shown] &&
      (m == SummaryIntro + t[..shown] + "..." <==> |t| > SummaryLimit)
  {
  }

  /** A history whose text fits the limit is shown whole, one line per record. */
  lemma SummaryWhole(h: seq<Record>)
    requires h != [] && |SummaryText(h)| <= SummaryLimit
    requires forall i :: 0 <= i < |h| ==> '\n' !in SummaryLine(h[i])
    ensures Split(Summary(h)[|SummaryIntro|..], '\n') == SummaryLines(h)
  {
    SplitJoin(SummaryLines(h), '\n');
    assert Summary(h)[|SummaryIntro|..] == SummaryText(h);
  }

  /** `handleDownloadHistory`: an empty history exports nothing; otherwise the
      web exports the CSV text and other platforms the summary message. */
  function Exported(h: seq<Record>, web: bool): (r: Export)
    ensures r.NoHistory? <==> h == []
    ensures r.CsvFile? <==> h != [] && web
    ensures r.CsvFile? ==> r.content == CsvText(h)
    ensures r.NativeSummary? ==> r.message == Summary(h)
  {
    if |h| == 0 then NoHistory
    else if web then CsvFile(CsvText(h))
    else NativeSummary(Summary(h))
  }

  /** What the download hands over: nothing for an empty history; on the web a
      CSV text that reads back to every record's fields when no field holds a
      quote or a line break; elsewhere the intro followed by the history text cut
      to the limit, with `...` exactly when something was cut. */
  lemma ExportedMeans(h: seq<Record>, web: bool)
    ensures Exported(h, web).NoHistory? <==> h == []
    ensures h != [] && web ==> Exported(h, web).CsvFile?
    ensures h != [] && !web ==> Exported(h, web).NativeSummary?
    ensures var r := Exported(h, web);
      r.CsvFile? && (forall i :: 0 <= i < |h| ==> PlainRecord(h[i])) ==>
        ParseCsv(r.content) == Some(Rows(h))
    ensures var r := Exported(h, web); var t := SummaryText(h);
      var shown := if |t| <= SummaryLimit then |t| else SummaryLimit;
      r.NativeSummary? ==>
        r.message[..|SummaryIntro|] == SummaryIntro &&
        r.message[|SummaryIntro|..|SummaryIntro| + shown] == t[..shown] &&
        (r.message == SummaryIntro + t[..shown] + "..." <==> |t| > SummaryLimit)
  {
    var r := Exported(h, web);
    if r.CsvFile? && (forall i :: 0 <= i < |h| ==> PlainRecord(h[i])) {
      CsvRoundTrip(h);
    }
    if r.NativeSummary? {
      SummaryShows(h);
    }
  }
}

=== FILE: keypad.dfy ===
/** The keys of the calculator screen that append text (App.js:190-234) and what
    the rewrite of `evaluateExpression` makes of any expression typed with them. */
module Keypad {
  import opened Text
  import opened Rewrite

  datatype Function = Sin | Cos | Tan | Log | Ln | Sqrt

  type DigitValue = d: nat | d < 10

  /** A key whose press appends its `value` to the expression. */
  datatype Key =
    | Digit(d: DigitValue)
    | Point | Open | Close | Plus | Minus | Power
    | Times | Divide | Pi | Euler
    | Call(f: Function)

  const Digits: string := "0123456789"

  /** The `value` the key appends. */
  function KeyText(k: Key): string
  {
    match k
    case Digit(d) => [Digits[d]]
    case Point => "." case Open => "(" case Close => ")"
    case Plus => "+" case Minus => "-" case Power => "^"
    case Times => "×" case Divide => "÷" case Pi => "π" case Euler => "e"
    case Call(f) =>
      match f
      case Sin => "sin(" case Cos => "cos(" case Tan => "tan("
      case Log => "log(" case Ln => "ln(" case Sqrt => "sqrt("
  }

  /** The host syntax the key stands for in radians mode. */
  function HostText(k: Key): string
  {
    match k
    case Times => "*" case Divide => "/" case Pi => "Math.PI" case Euler => "Math.E"
    case Call(f) =>
      (match f
       case Sin => "Math.sin(" case Cos => "Math.cos(" case Tan => "Math.tan("
       case Log => "Math.log10(" case Ln => "Math.log(" case Sqrt => "Math.sqrt(")
    case _ => KeyText(k)
  }

  predicate IsTrig(k: Key)
  {
    k.Call? && (k.f == Sin || k.f == Cos || k.f == Tan)
  }

  /** The host syntax the key stands for in degrees mode: a trigonometric call
      opens with the conversion factor. */
  function DegreeText(k: Key): string
  {
    if IsTrig(k) then HostText(k) + DegreeFactor else HostText(k)
  }

  /** The keys' texts one after the other. */
  function Spell(keys: seq<Key>, text: Key -> string): string
    decreases |keys|
  {
    if keys == [] then "" else text(keys[0]) + Spell(keys[1..], text)
  }

  /** The number of trigonometric keys. */
  function TrigCount(keys: seq<Key>): nat
    decreases |keys|
  {
    if keys == [] then 0 else (if IsTrig(keys[0]) then 1 else 0) + TrigCount(keys[1..])
  }

  /** The characters that keys without a rule of their own append. */
  predicate PlainKey(k: Key)
  {
    k.Digit? || k.Point? || k.Open? || k.Close? || k.Plus? || k.Minus? || k.Power?
  }

  lemma PlainKeyText(k: Key)
    requires PlainKey(k)
    ensures |KeyText(k)| == 1 && KeyText(k)[0] in PlainChars && HostText(k) == DegreeText(k) == KeyText(k)
  {
    if k.Digit? {
      assert Digits[k.d] in PlainChars;
    }
  }

  /** The values of the rule table that the keys meet. */
  lemma RuleValues()
    ensures Pattern(0) == "sin(" && Pattern(1) == "cos(" && Pattern(2) == "tan("
    ensures Pattern(3) == "log(" && Pattern(4) == "ln(" && Pattern(5) == "sqrt("
    ensures Replacement(0) == "Math.sin(" && Replacement(1) == "Math.cos(" && Replacement(2) == "Math.tan("
    ensures Replacement(3) == "Math.log10(" && Replacement(4) == "Math.log(" && Replacement(5) == "Math.sqrt("
    ensures Pattern(10) == "Math.sin(" && Pattern(11) == "Math.cos(" && Pattern(12) == "Math.tan("
  {
  }

  /** A one-character text that starts no pattern from `a` to `b - 1`. */
  lemma SingleInert(c: char, a: nat, b: nat)
    requires forall j :: a <= j < b ==> Pattern(j)[0] != c
    ensures InertAll([c], Pattern, a, b)
  {
    forall j | a <= j < b
      ensures InertFrom([c], Pattern(j), 0)
    {
      InertSingle(c, Pattern(j));
    }
    InertAllOf([c], Pattern, a, b);
  }

  /** A text without the keypad symbols of rules `a` to `b - 1`. */
  lemma SymbolsInert(t: string, a: nat, b: nat)
    requires 6 <= a && b <= 10
    requires forall j :: a <= j < b ==> Symbol(j) !in t
    ensures InertAll(t, Pattern, a, b)
  {
    forall j | a <= j < b
      ensures InertFrom(t, Pattern(j), 0)
    {
      PatternHead(j);
      InertAbsent(t, Symbol(j), 0);
    }
    InertAllOf(t, Pattern, a, b);
  }

  lemma InertAllJoin(t: string, a: nat, m: nat, b: nat)
    requires a <= m <= b && InertAll(t, Pattern, a, m) && InertAll(t, Pattern, m, b)
    ensures InertAll(t, Pattern, a, b)
    decreases m - a
  {
    if a < m {
      InertAllJoin(t, a + 1, m, b);
    }
  }

  /** A key without a rule of its own passes through the first chain. */
  lemma FirstChainPlain(k: Key, rest: string)
    requires PlainKey(k)
    ensures Chain(KeyText(k) + rest, Pattern, Replacement, 0, FirstChainEnd) ==
            HostText(k) + Chain(rest, Pattern, Replacement, 0, FirstChainEnd)
  {
    PlainKeyText(k);
    var c := KeyText(k)[0];
    assert KeyText(k) == [c];
    forall j | 0 <= j < FirstChainEnd
      ensures Pattern(j)[0] != c
    {
      PatternStartsOutside(j);
    }
    SingleInert(c, 0, FirstChainEnd);
    ChainPassThrough([c], rest, Pattern, Replacement, 0, FirstChainEnd);
  }

  /** The rule index of a keypad symbol key. */
  function SymbolRule(k: Key): nat
    requires k.Times? || k.Divide? || k.Pi? || k.Euler?
  {
    match k
    case Pi => 6 case Euler => 7 case Times => 8 case Divide => 9
  }

  /** A keypad symbol is replaced by its own rule and left alone by the others. */
  lemma FirstChainSymbol(k: Key, rest: string)
    requires k.Times? || k.Divide? || k.Pi? || k.Euler?
    ensures Chain(KeyText(k) + rest, Pattern, Replacement, 0, FirstChainEnd) ==
            HostText(k) + Chain(rest, Pattern, Replacement, 0, FirstChainEnd)
  {
    var h := SymbolRule(k);
    assert KeyText(k) == [Symbol(h)] == Pattern(h);
    assert HostText(k) == Replacement(h);
    forall j | 0 <= j < h
      ensures Pattern(j)[0] != Symbol(h)
    {
      PatternHead(j);
    }
    SingleInert(Symbol(h), 0, h);
    SymbolsInert(Replacement(h), h + 1, FirstChainEnd);
    ChainHit(KeyText(k), rest, Pattern, Replacement, 0, h, FirstChainEnd);
  }

  /** The rule index of a function key. */
  function FunctionRule(f: Function): nat
  {
    match f
    case Sin => 0 case Cos => 1 case Tan => 2 case Log => 3 case Ln => 4 case Sqrt => 5
  }

  // What a function key's text and its host text have in common with the
  // function patterns other than its own, one key at a time.

  lemma SinKeyInert()
    ensures InertAll("Math.sin(", Pattern, 1, 6)
  {
    RuleValues();
    assert InertFrom("Math.sin(", "sqrt(", 0) && InertFrom("Math.sin(", "ln(", 0);
    assert InertFrom("Math.sin(", "log(", 0) && InertFrom("Math.sin(", "tan(", 0);
    assert InertFrom("Math.sin(", "cos(", 0);
    assert InertAll("Math.sin(", Pattern, 3, 6);
  }

  lemma CosKeyInert()
    ensures InertAll("cos(", Pattern, 0, 1) && InertAll("Math.cos(", Pattern, 2, 6)
  {
    RuleValues();
    assert InertFrom("cos(", "sin(", 0);
    assert InertFrom("Math.cos(", "sqrt(", 0) && InertFrom("Math.cos(", "ln(", 0);
    assert InertFrom("Math.cos(", "log(", 0) && InertFrom("Math.cos(", "tan(", 0);
    assert InertAll("Math.cos(", Pattern, 4, 6);
  }

  lemma TanKeyInert()
    ensures InertAll("tan(", Pattern, 0, 2) && InertAll("Math.tan(", Pattern, 3, 6)
  {
    RuleValues();
    assert InertFrom("tan(", "sin(", 0) && InertFrom("tan(", "cos(", 0);
    assert InertFrom("Math.tan(", "sqrt(", 0) && InertFrom("Math.tan(", "ln(", 0);
    assert InertFrom("Math.tan(", "log(", 0);
  }

  lemma LogKeyInert()
    ensures InertAll("log(", Pattern, 0, 3) && InertAll("Math.log10(", Pattern, 4, 6)
  {
    RuleValues();
    assert InertFrom("log(", "sin(", 0) && InertFrom("log(", "cos(", 0);
    assert InertFrom("log(", "tan(", 0);
    assert InertFrom("Math.log10(", "sqrt(", 0) && InertFrom("Math.log10(", "ln(", 0);
  }

  lemma LnKeyInert()
    ensures InertAll("ln(", Pattern, 0, 4) && InertAll("Math.log(", Pattern, 5, 6)
  {
    RuleValues();
    assert InertFrom("ln(", "sin(", 0) && InertFrom("ln(", "cos(", 0);
    assert InertFrom("ln(", "tan(", 0) && InertFrom("ln(", "log(", 0);
    assert InertAll("ln(", Pattern, 2, 4);
    assert InertFrom("Math.log(", "sqrt(", 0);
  }

  lemma SqrtKeyInert()
    ensures InertAll("sqrt(", Pattern, 0, 5)
  {
    RuleValues();
    assert InertFrom("sqrt(", "sin(", 0) && InertFrom("sqrt(", "cos(", 0);
    assert InertFrom("sqrt(", "tan(", 0) && InertFrom("sqrt(", "log(", 0);
    assert InertFrom("sqrt(", "ln(", 0);
    assert InertAll("sqrt(", Pattern, 3, 5);
  }

  lemma FunctionKeysInert(f: Function)
    ensures InertAll(KeyText(Call(f)), Pattern, 0, FunctionRule(f))
    ensures InertAll(HostText(Call(f)), Pattern, FunctionRule(f) + 1, 6)
  {
    match f
    case Sin => SinKeyInert();
    case Cos => CosKeyInert();
    case Tan => TanKeyInert();
    case Log => LogKeyInert();
    case Ln => LnKeyInert();
    case Sqrt => SqrtKeyInert();
  }

  /** A function key is replaced by its own rule and left alone by the others. */
  lemma FirstChainCall(f: Function, rest: string)
    ensures Chain(KeyText(Call(f)) + rest, Pattern, Replacement, 0, FirstChainEnd) ==
            HostText(Call(f)) + Chain(rest, Pattern, Replacement, 0, FirstChainEnd)
  {
    var h := FunctionRule(f);
    var t, r := KeyText(Call(f)), HostText(Call(f));
    RuleValues();
    assert t == Pattern(h) && r == Replacement(h);
    FunctionKeysInert(f);
    SymbolsInert(r, 6, FirstChainEnd);
    InertAllJoin(r, h + 1, 6, FirstChainEnd);
    ChainHit(t, rest, Pattern, Replacement, 0, h, FirstChainEnd);
  }

  /** The keys whose host text is a single character other than `M`. */
  predicate ShortHost(k: Key)
  {
    PlainKey(k) || k.Times? || k.Divide?
  }

  lemma ShortHostText(k: Key)
    requires ShortHost(k)
    ensures |HostText(k)| == 1 && HostText(k)[0] != 'M' && DegreeText(k) == HostText(k)
  {
    if PlainKey(k) {
      PlainKeyText(k);
      assert 'M' !in PlainChars;
    }
  }

  /** The keys whose host text starts with `Math.` but is no trigonometric call. */
  predicate NamedHost(k: Key)
  {
    k.Pi? || k.Euler? || (k.Call? && !IsTrig(k))
  }

  // How the host texts starting with `Math.` meet the three trigonometric
  // patterns, one key at a time.

  lemma PiHostInert()
    ensures InertFrom("Math.PI", "Math.sin(", 0) && InertFrom("Math.PI", "Math.cos(", 0)
    ensures InertFrom("Math.PI", "Math.tan(", 0)
  {
  }

  lemma EulerHostInert()
    ensures InertFrom("Math.E", "Math.sin(", 0) && InertFrom("Math.E", "Math.cos(", 0)
    ensures InertFrom("Math.E", "Math.tan(", 0)
  {
  }

  lemma LogHostInert()
    ensures InertFrom("Math.log10(", "Math.sin(", 0) && InertFrom("Math.log10(", "Math.cos(", 0)
    ensures InertFrom("Math.log10(", "Math.tan(", 0)
  {
  }

  lemma LnHostInert()
    ensures InertFrom("Math.log(", "Math.sin(", 0) && InertFrom("Math.log(", "Math.cos(", 0)
    ensures InertFrom("Math.log(", "Math.tan(", 0)
  {
  }

  lemma SqrtHostInert()
    ensures InertFrom("Math.sqrt(", "Math.sin(", 0) && InertFrom("Math.sqrt(", "Math.cos(", 0)
    ensures InertFrom("Math.sqrt(", "Math.tan(", 0)
  {
  }

  /** The host text of such a key starts none of the trigonometric patterns. */
  lemma NamedHostInert(k: Key)
    requires NamedHost(k)
    ensures forall j :: FirstChainEnd <= j < DegreeChainEnd ==> InertFrom(HostText(k), Pattern(j), 0)
  {
    RuleValues();
    match k
    case Pi => PiHostInert();
    case Euler => EulerHostInert();
    case Call(f) =>
      match f
      case Log => LogHostInert();
      case Ln => LnHostInert();
      case Sqrt => SqrtHostInert();
  }

  lemma TrigHostsInert()
    ensures InertFrom("Math.sin(", "Math.cos(", 0) && InertFrom("Math.sin(", "Math.tan(", 0)
    ensures InertFrom("Math.cos(", "Math.sin(", 0) && InertFrom("Math.cos(", "Math.tan(", 0)
    ensures InertFrom("Math.tan(", "Math.sin(", 0) && InertFrom("Math.tan(", "Math.cos(", 0)
  {
  }

  lemma FactorInert()
    ensures InertFrom(DegreeFactor, "Math.cos(", 0) && InertFrom(DegreeFactor, "Math.tan(", 0)
  {
  }

  /** The rule index of a trigonometric key in the degrees chain. */
  function TrigRule(k: Key): nat
    requires IsTrig(k)
  {
    FirstChainEnd + FunctionRule(k.f)
  }

  lemma TrigTexts(k: Key)
    requires IsTrig(k)
    ensures HostText(k) == Pattern(TrigRule(k)) && DegreeText(k) == Replacement(TrigRule(k))
  {
    RuleValues();
  }

  lemma SinTrigInert()
    ensures InertAll("Math.sin(" + DegreeFactor, Pattern, 11, 13)
  {
    RuleValues();
    TrigHostsInert();
    FactorInert();
    InertAppend("Math.sin(", DegreeFactor, "Math.cos(", 0);
    InertAppend("Math.sin(", DegreeFactor, "Math.tan(", 0);
    assert InertAll("Math.sin(" + DegreeFactor, Pattern, 12, 13);
  }

  lemma CosTrigInert()
    ensures InertAll("Math.cos(", Pattern, 10, 11)
    ensures InertAll("Math.cos(" + DegreeFactor, Pattern, 12, 13)
  {
    RuleValues();
    TrigHostsInert();
    FactorInert();
    InertAppend("Math.cos(", DegreeFactor, "Math.tan(", 0);
  }

  lemma TanTrigInert()
    ensures InertAll("Math.tan(", Pattern, 10, 12)
  {
    RuleValues();
    TrigHostsInert();
    assert InertAll("Math.tan(", Pattern, 11, 12);
  }

  /** A trigonometric host text gets its factor and nothing more. */
  lemma TrigInert(k: Key)
    requires IsTrig(k)
    ensures InertAll(HostText(k), Pattern, FirstChainEnd, TrigRule(k))
    ensures InertAll(DegreeText(k), Pattern, TrigRule(k) + 1, DegreeChainEnd)
  {
    match k.f
    case Sin =>
      SinTrigInert();
      assert DegreeText(k) == "Math.sin(" + DegreeFactor;
    case Cos =>
      CosTrigInert();
      assert DegreeText(k) == "Math.cos(" + DegreeFactor;
    case Tan =>
      TanTrigInert();
  }

  /** Each key's host text goes through the degrees chain as its degree text. */
  lemma DegreeChainKey(k: Key, rest: string)
    ensures Chain(HostText(k) + rest, Pattern, Replacement, FirstChainEnd, DegreeChainEnd) ==
            DegreeText(k) + Chain(rest, Pattern, Replacement, FirstChainEnd, DegreeChainEnd)
  {
    var a, b := FirstChainEnd, DegreeChainEnd;
    if ShortHost(k) {
      ShortHostText(k);
      var c := HostText(k)[0];
      assert HostText(k) == [c];
      forall j | a <= j < b
        ensures Pattern(j)[0] != c
      {
        PatternHead(j);
      }
      SingleInert(c, a, b);
      ChainPassThrough([c], rest, Pattern, Replacement, a, b);
    } else if NamedHost(k) {
      NamedHostInert(k);
      InertAllOf(HostText(k), Pattern, a, b);
      ChainPassThrough(HostText(k), rest, Pattern, Replacement, a, b);
    } else {
      TrigTexts(k);
      TrigInert(k);
      ChainHit(HostText(k), rest, Pattern, Replacement, a, TrigRule(k), b);
    }
  }

  /** Each key's degree text adds one to the injection count exactly when the
      key is trigonometric. */
  lemma CountKey(k: Key, rest: string)
    ensures CountInjections(DegreeText(k) + rest) ==
            (if IsTrig(k) then 1 else 0) + CountInjections(rest)
  {
    var t := DegreeText(k);
    if IsTrig(k) {
      TrigTexts(k);
      CountInjectionsAt(FunctionRule(k.f), rest);
    } else {
      if ShortHost(k) {
        ShortHostText(k);
        assert t == [t[0]];
        forall j | FirstChainEnd <= j < DegreeChainEnd
          ensures InertFrom(t, Replacement(j), 0)
        {
          PatternHead(j);
          InertSingle(t[0], Replacement(j));
        }
      } else {
        NamedHostInert(k);
        forall j | FirstChainEnd <= j < DegreeChainEnd
          ensures InertFrom(t, Replacement(j), 0)
        {
          InertExtend(t, Pattern(j), DegreeFactor, 0);
        }
      }
      CountInjectionsInert(t, 0, rest);
      assert t[0..] == t;
    }
  }

  /** Each key's text goes through the first chain as its host text. */
  lemma FirstChainKey(k: Key, rest: string)
    ensures Chain(KeyText(k) + rest, Pattern, Replacement, 0, FirstChainEnd) ==
            HostText(k) + Chain(rest, Pattern, Replacement, 0, FirstChainEnd)
  {
    if PlainKey(k) {
      FirstChainPlain(k, rest);
    } else if k.Call? {
      FirstChainCall(k.f, rest);
    } else {
      FirstChainSymbol(k, rest);
    }
  }

  lemma ChainEmpty(a: nat, b: nat)
    requires b <= DegreeChainEnd
    ensures Chain("", Pattern, Replacement, a, b) == ""
  {
    ChainUntouched("", Pattern, Replacement, a, b);
  }

  lemma {:induction false} FirstChainTyped(keys: seq<Key>)
    ensures Chain(Spell(keys, KeyText), Pattern, Replacement, 0, FirstChainEnd) == Spell(keys, HostText)
    decreases |keys|
  {
    if keys == [] {
      ChainEmpty(0, FirstChainEnd);
    } else {
      FirstChainTyped(keys[1..]);
      FirstChainKey(keys[0], Spell(keys[1..], KeyText));
    }
  }

  lemma {:induction false} DegreeChainTyped(keys: seq<Key>)
    ensures Chain(Spell(keys, HostText), Pattern, Replacement, FirstChainEnd, DegreeChainEnd) ==
            Spell(keys, DegreeText)
    decreases |keys|
  {
    if keys == [] {
      ChainEmpty(FirstChainEnd, DegreeChainEnd);
    } else {
      DegreeChainTyped(keys[1..]);
      DegreeChainKey(keys[0], Spell(keys[1..], HostText));
    }
  }

  lemma {:induction false} CountTyped(keys: seq<Key>)
    ensures CountInjections(Spell(keys, DegreeText)) == TrigCount(keys)
    decreases |keys|
  {
    if keys != [] {
      CountTyped(keys[1..]);
      CountKey(keys[0], Spell(keys[1..], DegreeText));
    }
  }

  /** In radians mode an expression typed on the keypad becomes the host text of
      its keys, key by key. */
  lemma RadiansRewriteTyped(keys: seq<Key>)
    ensures Rewritten(Spell(keys, KeyText), true) == Spell(keys, HostText)
  {
    FirstChainTyped(keys);
  }

  /** In degrees mode it becomes the degree text of its keys, followed by one `)`
      per trigonometric key. */
  lemma DegreesRewriteTyped(keys: seq<Key>)
    ensures Rewritten(Spell(keys, KeyText), false) ==
            Spell(keys, DegreeText) + Closers(TrigCount(keys))
  {
    FirstChainTyped(keys);
    DegreeChainTyped(keys);
    CountTyped(keys);
  }

  /** The keys of `sin(90)`. */
  const SinNinetyKeys: seq<Key> := [Call(Sin), Digit(9), Digit(0), Close]

  lemma SinNinetySpelled()
    ensures Spell(SinNinetyKeys, KeyText) == "sin(90)"
    ensures Spell(SinNinetyKeys, DegreeText) == "Math.sin(Math.PI/180*90)"
  {
    assert SinNinetyKeys[1..][1..][1..][1..] == [];
  }

  lemma SinNinetyBalanced()
    ensures TrigCount(SinNinetyKeys) == 1
    ensures Count(Spell(SinNinetyKeys, KeyText), '(') == 1
    ensures Count(Spell(SinNinetyKeys, KeyText), ')') == 1
  {
    assert SinNinetyKeys[1..][1..][1..][1..] == [];
    SinNinetySpelled();
    assert Count("sin(90)", '(') == 1;
    assert Count("sin(90)", ')') == 1;
  }

  /** `sin(90)` typed in degrees mode reaches the host as this text. */
  lemma DegreesSinNinety()
    ensures Spell(SinNinetyKeys, KeyText) == "sin(90)"
    ensures Rewritten(Spell(SinNinetyKeys, KeyText), false) == "Math.sin(Math.PI/180*90))"
  {
    SinNinetySpelled();
    SinNinetyBalanced();
    DegreesRewriteTyped(SinNinetyKeys);
  }

  /** The balanced `sin(90)` leaves degrees mode with one `)` more than `(`: the
      appended `)` closes nothing that the injection opened. */
  lemma DegreesSinNinetyUnbalanced()
    ensures
      var r := Rewritten(Spell(SinNinetyKeys, KeyText), false);
      Count(r, ')') == Count(r, '(') + 1
  {
    var expr := Spell(SinNinetyKeys, KeyText);
    FirstChainTyped(SinNinetyKeys);
    DegreeChainTyped(SinNinetyKeys);
    CountTyped(SinNinetyKeys);
    SinNinetyBalanced();
    ParenthesisCounts(expr, false);
  }

  /** The keys of `sin(90` with the call left open. */
  const OpenSinNinetyKeys: seq<Key> := [Call(Sin), Digit(9), Digit(0)]

  lemma OpenSinNinetySpelled()
    ensures Spell(OpenSinNinetyKeys, KeyText) == "sin(90"
    ensures Spell(OpenSinNinetyKeys, DegreeText) == "Math.sin(Math.PI/180*90"
    ensures TrigCount(OpenSinNinetyKeys) == 1
  {
    assert OpenSinNinetyKeys[1..][1..][1..] == [];
  }

  /** `sin(90` typed in degrees mode, its call left open, reaches the host
      balanced: the appended `)` closes the call's own `(`. */
  lemma DegreesOpenSinNinety()
    ensures Spell(OpenSinNinetyKeys, KeyText) == "sin(90"
    ensures Rewritten(Spell(OpenSinNinetyKeys, KeyText), false) == "Math.sin(Math.PI/180*90)"
  {
    OpenSinNinetySpelled();
    DegreesRewriteTyped(OpenSinNinetyKeys);
  }

  /** That text has as many `)` as `(`. */
  lemma DegreesOpenSinNinetyBalanced()
    ensures
      var r := Rewritten(Spell(OpenSinNinetyKeys, KeyText), false);
      Count(r, ')') == Count(r, '(') == 1
  {
    var expr := Spell(OpenSinNinetyKeys, KeyText);
    OpenSinNinetySpelled();
    assert Count("sin(90", '(') == 1;
    assert Count("sin(90", ')') == 0;
    FirstChainTyped(OpenSinNinetyKeys);
    DegreeChainTyped(OpenSinNinetyKeys);
    CountTyped(OpenSinNinetyKeys);
    ParenthesisCounts(expr, false);
  }
}

=== FILE: rewrite.dfy ===
/** The textual part of `evaluateExpression` (App.js:89-112): a fixed chain of
    global replacements that turns the keypad's notation into host syntax, and in
    degrees mode the injection of a conversion factor after each trigonometric
    call followed by one appended `)` per injection. */
module Rewrite {
  import opened Text

  /** The function keys in the order the chain rewrites them (0 to 5), as typed. */
  function KeyName(f: nat): string
  {
    match f
    case 0 => "sin" case 1 => "cos" case 2 => "tan"
    case 3 => "log" case 4 => "ln" case _ => "sqrt"
  }

  /** The host function each of them becomes: `log` is base 10, `ln` is natural. */
  function HostName(f: nat): string
  {
    match f
    case 0 => "sin" case 1 => "cos" case 2 => "tan"
    case 3 => "log10" case 4 => "log" case _ => "sqrt"
  }

  /** The one-character keypad symbols, rules 6 to 9. */
  function Symbol(j: nat): char
  {
    match j
    case 6 => 'π' case 7 => 'e' case 8 => '×' case _ => '÷'
  }

  function SymbolHost(j: nat): string
  {
    match j
    case 6 => "Math.PI" case 7 => "Math.E" case 8 => "*" case _ => "/"
  }

  /** The degrees-to-radians factor injected inside each trigonometric call. */
  const DegreeFactor: string := "Math.PI/180*"

  /** Rules 0 to 9 are the first chain, in source order; rules 10 to 12 are the
      degrees chain, which rewrites `Math.sin(`, `Math.cos(` and `Math.tan(`. */
  const FirstChainEnd: nat := 10
  const DegreeChainEnd: nat := 13

  /** The literal that rule `j` searches for. */
  function Pattern(j: nat): (p: string)
    ensures p != []
  {
    if j < 6 then KeyName(j) + "("
    else if j < 10 then [Symbol(j)]
    else "Math." + KeyName(j - 10) + "("
  }

  /** The text that rule `j` puts in place of each occurrence. */
  function Replacement(j: nat): string
  {
    if j < 6 then "Math." + HostName(j) + "("
    else if j < 10 then SymbolHost(j)
    else Pattern(j) + DegreeFactor
  }

  /** `s` starts with `p`. */
  predicate StartsWith(s: string, p: string)
  {
    |p| <= |s| && s[..|p|] == p
  }

  /** The text at the start of `s` is one of the three injected call heads, which
      are exactly the matches of `Math\.(sin|cos|tan)\(Math\.PI\/180\*`. */
  predicate StartsInjection(s: string)
  {
    StartsWith(s, Replacement(10)) || StartsWith(s, Replacement(11)) ||
    StartsWith(s, Replacement(12))
  }

  /** The length of the array a global match of that expression returns (or of
      the empty array when there is none): non-overlapping matches, counted left
      to right. */
  function CountInjections(s: string): nat
    decreases |s|
  {
    if s == [] then 0
    else if StartsInjection(s) then 1 + CountInjections(s[|Replacement(10)|..])
    else CountInjections(s[1..])
  }

  /** The text after the first chain and, in degrees mode, after the injections
      (the source's `processedExpr` before the appending loop). */
  function Substituted(expr: string, isRadians: bool): string
  {
    var t := Chain(expr, Pattern, Replacement, 0, FirstChainEnd);
    if isRadians then t else Chain(t, Pattern, Replacement, FirstChainEnd, DegreeChainEnd)
  }

  /** The string handed to the host evaluator. */
  function Rewritten(expr: string, isRadians: bool): string
  {
    var t := Substituted(expr, isRadians);
    if isRadians then t else t + Closers(CountInjections(t))
  }

  /** Characters that pass through every rule: digits, `.`, `+`, `-`, `^` and the
      parentheses. */
  const PlainChars: string := "0123456789.+-^()"

  predicate PlainArithmetic(s: string)
  {
    forall i :: 0 <= i < |s| ==> s[i] in PlainChars
  }

  /** No parenthesis in `s`. */
  predicate ParenFree(s: string)
  {
    forall i :: 0 <= i < |s| ==> s[i] != '(' && s[i] != ')'
  }

  lemma NamesParenFree(f: nat)
    ensures ParenFree(KeyName(f)) && ParenFree(HostName(f))
  {
  }

  lemma FactorParenFree()
    ensures '(' !in DegreeFactor && ')' !in DegreeFactor
  {
  }

  lemma FunctionRuleKeepsParens(j: nat, c: char)
    requires j < 6 && (c == '(' || c == ')')
    ensures Count(Pattern(j), c) == Count(Replacement(j), c)
  {
    var name, host := KeyName(j), HostName(j);
    NamesParenFree(j);
    assert c !in name && c !in host && c !in "Math.";
    CountAbsent(name, c);
    CountAbsent(host, c);
    CountAbsent("Math.", c);
    CountAppend(name, "(", c);
    CountAppend("Math.", host, c);
    CountAppend("Math." + host, "(", c);
  }

  lemma SymbolRuleKeepsParens(j: nat, c: char)
    requires 6 <= j < 10 && (c == '(' || c == ')')
    ensures Count(Pattern(j), c) == Count(Replacement(j), c)
  {
    assert c !in [Symbol(j)] && c !in SymbolHost(j);
    CountAbsent([Symbol(j)], c);
    CountAbsent(SymbolHost(j), c);
  }

  lemma DegreeRuleKeepsParens(j: nat, c: char)
    requires 10 <= j && (c == '(' || c == ')')
    ensures Count(Pattern(j), c) == Count(Replacement(j), c)
  {
    FactorParenFree();
    var p := Pattern(j);
    assert Replacement(j) == p + DegreeFactor;
    CountAbsent(DegreeFactor, c);
    CountAppend(p, DegreeFactor, c);
  }

  /** Every rule trades its pattern for a replacement with as many `(` and as
      many `)`. */
  lemma RuleKeepsParens(j: nat, c: char)
    requires c == '(' || c == ')'
    ensures Count(Pattern(j), c) == Count(Replacement(j), c)
  {
    if j < 6 {
      FunctionRuleKeepsParens(j, c);
    } else if j < 10 {
      SymbolRuleKeepsParens(j, c);
    } else {
      DegreeRuleKeepsParens(j, c);
    }
  }

  /** How each pattern starts: a function name, a keypad symbol, or `M`. */
  lemma PatternHead(j: nat)
    ensures j < 6 ==> Pattern(j)[0] in "sctl"
    ensures 6 <= j < 10 ==> Pattern(j) == [Symbol(j)]
    ensures 10 <= j ==> Pattern(j)[0] == 'M' && Replacement(j)[0] == 'M'
  {
    if j < 6 {
      assert Pattern(j)[0] == KeyName(j)[0];
      assert KeyName(j)[0] in "sctl";
    }
  }

  /** The three injected call heads have the same length. */
  lemma InjectionLengths(f: nat)
    requires f < 3
    ensures |Replacement(10 + f)| == |Replacement(10)|
  {
    assert |KeyName(f)| == 3;
  }

  /** No injection can start in `t` from position `k` on. */
  predicate InjectionFree(t: string, k: nat)
  {
    InertFrom(t, Replacement(10), k) && InertFrom(t, Replacement(11), k) &&
    InertFrom(t, Replacement(12), k)
  }

  /** Text in which no injection can start adds nothing to the count. */
  lemma {:induction false} CountInjectionsInert(t: string, k: nat, rest: string)
    requires k <= |t| && InjectionFree(t, k)
    ensures CountInjections(t[k..] + rest) == CountInjections(rest)
    decreases |t| - k
  {
    var s := t[k..] + rest;
    if k == |t| {
      assert s == rest;
    } else {
      if StartsWith(s, Replacement(10)) {
        AgreesOfMatch(t, k, rest, Replacement(10), 0);
        assert false;
      }
      if StartsWith(s, Replacement(11)) {
        AgreesOfMatch(t, k, rest, Replacement(11), 0);
        assert false;
      }
      if StartsWith(s, Replacement(12)) {
        AgreesOfMatch(t, k, rest, Replacement(12), 0);
        assert false;
      }
      assert s[1..] == t[k + 1..] + rest;
      CountInjectionsInert(t, k + 1, rest);
    }
  }

  /** An injection at the start counts once and the count resumes after it. */
  lemma CountInjectionsAt(f: nat, rest: string)
    requires f < 3
    ensures CountInjections(Replacement(10 + f) + rest) == 1 + CountInjections(rest)
  {
    var s := Replacement(10 + f) + rest;
    InjectionLengths(f);
    assert s[..|Replacement(10 + f)|] == Replacement(10 + f);
    assert StartsInjection(s);
    assert s[|Replacement(10)|..] == rest;
  }

  /** Every injection starts with `M`, so a text without one has none. */
  lemma {:induction false} NoInjectionsWithoutM(s: string)
    requires 'M' !in s
    ensures CountInjections(s) == 0
    decreases |s|
  {
    if s != [] {
      assert !StartsInjection(s) by {
        assert Replacement(10)[0] == 'M' && Replacement(11)[0] == 'M' && Replacement(12)[0] == 'M';
        assert |s| >= 1 ==> s[0] != 'M';
      }
      assert forall x | x in s[1..] :: x in s;
      NoInjectionsWithoutM(s[1..]);
    }
  }

  /** The keypad symbols that the first chain rewrites, rules 6 to 9. */
  const KeypadSymbols: string := "πe×÷"

  /** Text holding none of the keypad symbols. */
  predicate SymbolFree(s: string)
  {
    forall i :: 0 <= i < |s| ==> s[i] !in KeypadSymbols
  }

  lemma SymbolFreeAppend(a: string, b: string)
    requires SymbolFree(a) && SymbolFree(b)
    ensures SymbolFree(a + b)
  {
  }

  lemma NamesSymbolFree(f: nat)
    ensures SymbolFree(KeyName(f)) && SymbolFree(HostName(f))
  {
  }

  /** No replacement introduces a keypad symbol. */
  lemma ReplacementSymbolFree(j: nat)
    ensures SymbolFree(Replacement(j))
  {
    assert SymbolFree("Math.") && SymbolFree("(");
    if j < 6 {
      NamesSymbolFree(j);
      SymbolFreeAppend("Math.", HostName(j));
      SymbolFreeAppend("Math." + HostName(j), "(");
    } else if j < 10 {
      assert SymbolFree(SymbolHost(j));
    } else {
      NamesSymbolFree(j - 10);
      assert SymbolFree(DegreeFactor);
      SymbolFreeAppend("Math.", KeyName(j - 10));
      SymbolFreeAppend("Math." + KeyName(j - 10), "(");
      SymbolFreeAppend(Pattern(j), DegreeFactor);
    }
  }

  /** The keypad symbol of rule `k` is gone after the rewrite. */
  lemma SymbolGone(expr: string, isRadians: bool, k: nat)
    requires 6 <= k < 10
    ensures Symbol(k) !in Rewritten(expr, isRadians)
  {
    var c := Symbol(k);
    assert c in KeypadSymbols;
    forall j | k <= j < DegreeChainEnd
      ensures c !in Replacement(j)
    {
      ReplacementSymbolFree(j);
    }
    var t := Chain(expr, Pattern, Replacement, 0, FirstChainEnd);
    ChainRemoves(expr, Pattern, Replacement, 0, k, FirstChainEnd, c);
    if !isRadians {
      ChainKeepsOut(t, Pattern, Replacement, FirstChainEnd, DegreeChainEnd, c);
      var d := Chain(t, Pattern, Replacement, FirstChainEnd, DegreeChainEnd);
      assert c !in Closers(CountInjections(d));
    }
  }

  /** After the rewrite no `×`, `÷`, `π` or `e` is left, in either angle mode. */
  lemma NoKeypadSymbolsLeft(expr: string, isRadians: bool)
    ensures '×' !in Rewritten(expr, isRadians) && '÷' !in Rewritten(expr, isRadians)
    ensures 'π' !in Rewritten(expr, isRadians) && 'e' !in Rewritten(expr, isRadians)
  {
    SymbolGone(expr, isRadians, 6);
    SymbolGone(expr, isRadians, 7);
    SymbolGone(expr, isRadians, 8);
    SymbolGone(expr, isRadians, 9);
  }

  /** Every pattern starts with a letter or a keypad symbol. */
  lemma PatternStartsOutside(j: nat)
    ensures Pattern(j)[0] !in PlainChars
  {
    if j < 6 {
      assert Pattern(j)[0] == KeyName(j)[0];
      assert KeyName(j)[0] in "sctl";
    } else if j >= 10 {
      assert Pattern(j)[0] == 'M';
    }
  }

  /** Plain arithmetic comes back unchanged in both modes: nothing in it is
      rewritten, `^` included, and no `)` is appended. */
  lemma PlainArithmeticUnchanged(expr: string, isRadians: bool)
    requires PlainArithmetic(expr)
    ensures Rewritten(expr, isRadians) == expr
  {
    forall j | 0 <= j < DegreeChainEnd
      ensures Pattern(j)[0] !in expr
    {
      PatternStartsOutside(j);
    }
    ChainUntouched(expr, Pattern, Replacement, 0, FirstChainEnd);
    if !isRadians {
      ChainUntouched(expr, Pattern, Replacement, FirstChainEnd, DegreeChainEnd);
      assert 'M' !in expr by { assert 'M' !in PlainChars; }
      NoInjectionsWithoutM(expr);
      assert expr + Closers(0) == expr;
    }
  }

  /** Both chains keep the number of each parenthesis. */
  lemma ChainKeepsParens(s: string, a: nat, b: nat, c: char)
    requires b <= DegreeChainEnd && (c == '(' || c == ')')
    ensures Count(Chain(s, Pattern, Replacement, a, b), c) == Count(s, c)
  {
    forall j | a <= j < b
      ensures Count(Pattern(j), c) == Count(Replacement(j), c)
    {
      RuleKeepsParens(j, c);
    }
    ChainKeepsCount(s, Pattern, Replacement, a, b, c);
  }

  /** The rewrite never changes the number of `(`; in radians mode it never
      changes the number of `)`; in degrees mode it adds one `)` per injection,
      all of them at the end. */
  lemma ParenthesisCounts(expr: string, isRadians: bool)
    ensures Count(Rewritten(expr, isRadians), '(') == Count(expr, '(')
    ensures isRadians ==> Count(Rewritten(expr, isRadians), ')') == Count(expr, ')')
    ensures !isRadians ==>
      var t := Substituted(expr, false);
      Rewritten(expr, false) == t + Closers(CountInjections(t)) &&
      Count(Rewritten(expr, false), ')') == Count(expr, ')') + CountInjections(t)
  {
    var t := Chain(expr, Pattern, Replacement, 0, FirstChainEnd);
    ChainKeepsParens(expr, 0, FirstChainEnd, '(');
    ChainKeepsParens(expr, 0, FirstChainEnd, ')');
    if !isRadians {
      DegreeParens(t);
    }
  }

  /** The degrees chain and the appended closers together. */
  lemma DegreeParens(t: string)
    ensures
      var d := Chain(t, Pattern, Replacement, FirstChainEnd, DegreeChainEnd);
      var n := CountInjections(d);
      Count(d + Closers(n), '(') == Count(t, '(') &&
      Count(d + Closers(n), ')') == Count(t, ')') + n
  {
    var d := Chain(t, Pattern, Replacement, FirstChainEnd, DegreeChainEnd);
    var n := CountInjections(d);
    ChainKeepsParens(t, FirstChainEnd, DegreeChainEnd, '(');
    ChainKeepsParens(t, FirstChainEnd, DegreeChainEnd, ')');
    ClosersCount(n);
    CountAppend(d, Closers(n), '(');
    CountAppend(d, Closers(n), ')');
  }
}

=== FILE: text.dfy ===
/** String operations the calculator engine performs: a literal global replace
    (JavaScript `s.replace(/pat/g, rep)`), `join` and splitting into lines or fields. */
module Text {

  datatype Option<T> = None | Some(value: T)

  /** `s.replace(/pat/g, rep)` for a pattern without metacharacters: the scan goes
      left to right, every match is replaced and the scan resumes after it, so
      matches never overlap and a replacement is never rescanned. */
  function ReplaceAll(s: string, pat: string, rep: string): string
    requires pat != []
    decreases |s|
  {
    if |s| < |pat| then s
    else if s[..|pat|] == pat then rep + ReplaceAll(s[|pat|..], pat, rep)
    else [s[0]] + ReplaceAll(s[1..], pat, rep)
  }

  /** `p` agrees with `t` from position `k` of `t` on, for as far as both reach:
      an occurrence of `p` could start at `k` in `t` followed by anything. */
  predicate Agrees(t: string, k: nat, p: string, m: nat)
    decreases |p| - m
  {
    m >= |p| || k + m >= |t| || (t[k + m] == p[m] && Agrees(t, k, p, m + 1))
  }

  /** No occurrence of `p` can start at position `k` of `t` or later, whatever
      text follows `t`. */
  predicate InertFrom(t: string, p: string, k: nat)
    decreases |t| - k
  {
    k >= |t| || (!Agrees(t, k, p, 0) && InertFrom(t, p, k + 1))
  }

  /** The number of occurrences of `c` in `s`. */
  function Count(s: string, c: char): nat
    decreases |s|
  {
    if s == [] then 0 else (if s[0] == c then 1 else 0) + Count(s[1..], c)
  }

  /** `n` closing parentheses. */
  function Closers(n: nat): (r: string)
    ensures |r| == n && forall i :: 0 <= i < n ==> r[i] == ')'
  {
    if n == 0 then "" else Closers(n - 1) + ")"
  }

  /** `xs.join(sep)`. */
  function Join(xs: seq<string>, sep: string): string
    decreases |xs|
  {
    if xs == [] then "" else if |xs| == 1 then xs[0] else xs[0] + sep + Join(xs[1..], sep)
  }

  /** `s.split(sep)` for a one-character separator: always at least one piece. */
  function Split(s: string, sep: char): (r: seq<string>)
    ensures |r| >= 1
    decreases |s|
  {
    if s == [] then [""]
    else if s[0] == sep then [""] + Split(s[1..], sep)
    else var rest := Split(s[1..], sep); [[s[0]] + rest[0]] + rest[1..]
  }

  /** A pattern whose first character does not occur in `s` leaves `s` alone. */
  lemma {:induction false} ReplaceAllUntouched(s: string, pat: string, rep: string)
    requires pat != [] && pat[0] !in s
    ensures ReplaceAll(s, pat, rep) == s
    decreases |s|
  {
    if |s| >= |pat| {
      assert s[..|pat|][0] == s[0];
      ReplaceAllUntouched(s[1..], pat, rep);
      assert [s[0]] + s[1..] == s;
    }
  }

  lemma {:induction false} CountAppend(a: string, b: string, c: char)
    ensures Count(a + b, c) == Count(a, c) + Count(b, c)
    decreases |a|
  {
    if a == [] {
      assert a + b == b;
    } else {
      CountAppend(a[1..], b, c);
      assert (a + b)[1..] == a[1..] + b;
    }
  }

  lemma {:induction false} CountAbsent(s: string, c: char)
    requires c !in s
    ensures Count(s, c) == 0
    decreases |s|
  {
    if s != [] {
      assert forall x | x in s[1..] :: x in s;
      CountAbsent(s[1..], c);
    }
  }

  lemma {:induction false} ClosersCount(n: nat)
    ensures Count(Closers(n), ')') == n && Count(Closers(n), '(') == 0
  {
    if n > 0 {
      ClosersCount(n - 1);
      CountAppend(Closers(n - 1), ")", ')');
      CountAppend(Closers(n - 1), ")", '(');
    }
  }

  /** A replacement with as many `c` as its pattern keeps the number of `c`. */
  lemma {:induction false} ReplaceAllKeepsCount(s: string, pat: string, rep: string, c: char)
    requires pat != [] && Count(pat, c) == Count(rep, c)
    ensures Count(ReplaceAll(s, pat, rep), c) == Count(s, c)
    decreases |s|
  {
    if |s| >= |pat| {
      if s[..|pat|] == pat {
        ReplaceAllKeepsCount(s[|pat|..], pat, rep, c);
        CountAppend(rep, ReplaceAll(s[|pat|..], pat, rep), c);
        CountAppend(pat, s[|pat|..], c);
        assert s == pat + s[|pat|..];
      } else {
        ReplaceAllKeepsCount(s[1..], pat, rep, c);
        assert ReplaceAll(s, pat, rep)[1..] == ReplaceAll(s[1..], pat, rep);
      }
    }
  }

  /** `c` is absent afterwards when the replacement has none and either the
      pattern is `c` itself or `s` had none to begin with. */
  lemma {:induction false} ReplaceAllExcludes(s: string, pat: string, rep: string, c: char)
    requires pat != [] && c !in rep && (pat == [c] || c !in s)
    ensures c !in ReplaceAll(s, pat, rep)
    decreases |s|
  {
    if |s| >= |pat| {
      if s[..|pat|] == pat {
        assert s[|pat|..] == s[..][|pat|..];
        if c !in s {
          assert forall x | x in s[|pat|..] :: x in s;
        }
        ReplaceAllExcludes(s[|pat|..], pat, rep, c);
      } else {
        if pat == [c] {
          assert s[0] != c by { assert s[..1] == [s[0]]; }
        }
        assert forall x | x in s[1..] :: x in s;
        ReplaceAllExcludes(s[1..], pat, rep, c);
      }
    } else {
      assert pat == [c] ==> s == [];
    }
  }

  /** An occurrence of `p` at the start of `t[k..] + rest` agrees with `t` at `k`. */
  lemma {:induction false} AgreesOfMatch(t: string, k: nat, rest: string, p: string, m: nat)
    requires k <= |t| && m <= |p| <= |t[k..] + rest| && (t[k..] + rest)[..|p|] == p
    ensures Agrees(t, k, p, m)
    decreases |p| - m
  {
    if m < |p| && k + m < |t| {
      assert (t[k..] + rest)[..|p|][m] == t[k + m];
      AgreesOfMatch(t, k, rest, p, m + 1);
    }
  }

  /** Text in which `p` cannot start passes through the replacement unchanged,
      and the rest is replaced as if on its own. */
  lemma {:induction false} ReplaceAllInert(t: string, k: nat, rest: string, p: string, r: string)
    requires p != [] && k <= |t| && InertFrom(t, p, k)
    ensures ReplaceAll(t[k..] + rest, p, r) == t[k..] + ReplaceAll(rest, p, r)
    decreases |t| - k
  {
    var s := t[k..] + rest;
    if k == |t| {
      assert s == rest;
    } else if |s| < |p| {
      assert ReplaceAll(rest, p, r) == rest;
    } else if s[..|p|] == p {
      AgreesOfMatch(t, k, rest, p, 0);
      assert false;
    } else {
      ReplaceAllInert(t, k + 1, rest, p, r);
      assert s[1..] == t[k + 1..] + rest;
      assert [s[0]] + t[k + 1..] == t[k..];
    }
  }

  /** Agreement with `a + b` at a position inside `a` implies agreement with `a`. */
  lemma {:induction false} AgreesLeft(a: string, b: string, k: nat, p: string, m: nat)
    requires k < |a| && Agrees(a + b, k, p, m)
    ensures Agrees(a, k, p, m)
    decreases |p| - m
  {
    if m < |p| && k + m < |a| {
      AgreesLeft(a, b, k, p, m + 1);
    }
  }

  /** Agreement with `a + b` at a position inside `b` is agreement with `b`. */
  lemma {:induction false} AgreesRight(a: string, b: string, k: nat, p: string, m: nat)
    requires Agrees(a + b, |a| + k, p, m)
    ensures Agrees(b, k, p, m)
    decreases |p| - m
  {
    if m < |p| && k + m < |b| {
      assert (a + b)[|a| + k + m] == b[k + m];
      AgreesRight(a, b, k, p, m + 1);
    }
  }

  lemma {:induction false} InertRight(a: string, b: string, p: string, k: nat)
    requires InertFrom(b, p, k)
    ensures InertFrom(a + b, p, |a| + k)
    decreases |b| - k
  {
    if k < |b| {
      if Agrees(a + b, |a| + k, p, 0) {
        AgreesRight(a, b, k, p, 0);
      }
      InertRight(a, b, p, k + 1);
    }
  }

  /** Two pieces in which `p` cannot start make a text in which it cannot start. */
  lemma {:induction false} InertAppend(a: string, b: string, p: string, k: nat)
    requires k <= |a| && InertFrom(a, p, k) && InertFrom(b, p, 0)
    ensures InertFrom(a + b, p, k)
    decreases |a| - k
  {
    if k == |a| {
      InertRight(a, b, p, 0);
    } else {
      if Agrees(a + b, k, p, 0) {
        AgreesLeft(a, b, k, p, 0);
      }
      InertAppend(a, b, p, k + 1);
    }
  }

  lemma {:induction false} AgreesExtend(t: string, k: nat, p: string, q: string, m: nat)
    requires Agrees(t, k, p + q, m)
    ensures Agrees(t, k, p, m)
    decreases |p| - m
  {
    if m < |p| && k + m < |t| {
      AgreesExtend(t, k, p, q, m + 1);
    }
  }

  /** A text in which `p` cannot start cannot hold anything longer that starts
      with `p` either. */
  lemma {:induction false} InertExtend(t: string, p: string, q: string, k: nat)
    requires InertFrom(t, p, k)
    ensures InertFrom(t, p + q, k)
    decreases |t| - k
  {
    if k < |t| {
      if Agrees(t, k, p + q, 0) {
        AgreesExtend(t, k, p, q, 0);
      }
      InertExtend(t, p, q, k + 1);
    }
  }

  /** A one-character pattern cannot start in a text without that character. */
  lemma {:induction false} InertAbsent(t: string, c: char, k: nat)
    requires forall i :: k <= i < |t| ==> t[i] != c
    ensures InertFrom(t, [c], k)
    decreases |t| - k
  {
    if k < |t| {
      InertAbsent(t, c, k + 1);
    }
  }

  /** A pattern cannot start in a one-character text other than its first. */
  lemma InertSingle(c: char, p: string)
    requires p != [] && p[0] != c
    ensures InertFrom([c], p, 0)
  {
    assert !Agrees([c], 0, p, 0);
    assert InertFrom([c], p, 1);
  }

  /** An occurrence at the very start is replaced and the scan resumes after it. */
  lemma ReplaceAllAtStart(rest: string, p: string, r: string)
    requires p != []
    ensures ReplaceAll(p + rest, p, r) == r + ReplaceAll(rest, p, r)
  {
    assert (p + rest)[..|p|] == p;
    assert (p + rest)[|p|..] == rest;
  }

  /** Non-empty patterns from `a` to `b - 1`. */
  predicate Searchable(pat: nat -> string, a: nat, b: nat)
  {
    forall j :: a <= j < b ==> pat(j) != []
  }

  /** The replacements of `pat(j)` by `rep(j)` for `j` from `a` to `b - 1`, each
      applied to the whole output of the one before. */
  function Chain(s: string, pat: nat -> string, rep: nat -> string, a: nat, b: nat): string
    requires Searchable(pat, a, b)
    decreases b
  {
    if b <= a then s else ReplaceAll(Chain(s, pat, rep, a, b - 1), pat(b - 1), rep(b - 1))
  }

  /** Replacements that each keep the number of `c` keep it over the chain. */
  lemma {:induction false} ChainKeepsCount(s: string, pat: nat -> string, rep: nat -> string, a: nat, b: nat, c: char)
    requires Searchable(pat, a, b)
    requires forall j :: a <= j < b ==> Count(pat(j), c) == Count(rep(j), c)
    ensures Count(Chain(s, pat, rep, a, b), c) == Count(s, c)
    decreases b
  {
    if b > a {
      ChainKeepsCount(s, pat, rep, a, b - 1, c);
      ReplaceAllKeepsCount(Chain(s, pat, rep, a, b - 1), pat(b - 1), rep(b - 1), c);
    }
  }

  /** A character that is absent and that no replacement introduces stays absent. */
  lemma {:induction false} ChainKeepsOut(s: string, pat: nat -> string, rep: nat -> string, a: nat, b: nat, c: char)
    requires Searchable(pat, a, b) && c !in s
    requires forall j :: a <= j < b ==> c !in rep(j)
    ensures c !in Chain(s, pat, rep, a, b)
    decreases b
  {
    if b > a {
      ChainKeepsOut(s, pat, rep, a, b - 1, c);
      ReplaceAllExcludes(Chain(s, pat, rep, a, b - 1), pat(b - 1), rep(b - 1), c);
    }
  }

  /** Once step `k` has replaced every `c`, a character no later replacement
      introduces, the output holds no `c`. */
  lemma {:induction false} ChainRemoves(s: string, pat: nat -> string, rep: nat -> string, a: nat, k: nat, b: nat, c: char)
    requires Searchable(pat, a, b) && a <= k < b && pat(k) == [c]
    requires forall j :: k <= j < b ==> c !in rep(j)
    ensures c !in Chain(s, pat, rep, a, b)
    decreases b
  {
    if k < b - 1 {
      ChainRemoves(s, pat, rep, a, k, b - 1, c);
    }
    ReplaceAllExcludes(Chain(s, pat, rep, a, b - 1), pat(b - 1), rep(b - 1), c);
  }

  /** Patterns none of which can start anywhere in `s` leave it alone. */
  lemma {:induction false} ChainUntouched(s: string, pat: nat -> string, rep: nat -> string, a: nat, b: nat)
    requires Searchable(pat, a, b)
    requires forall j :: a <= j < b ==> pat(j)[0] !in s
    ensures Chain(s, pat, rep, a, b) == s
    decreases b
  {
    if b > a {
      ChainUntouched(s, pat, rep, a, b - 1);
      ReplaceAllUntouched(s, pat(b - 1), rep(b - 1));
    }
  }

  /** None of the patterns from `a` to `b - 1` can start in `t`. */
  predicate InertAll(t: string, pat: nat -> string, a: nat, b: nat)
    decreases b - a
  {
    a >= b || (InertFrom(t, pat(a), 0) && InertAll(t, pat, a + 1, b))
  }

  lemma {:induction false} InertAllLast(t: string, pat: nat -> string, a: nat, b: nat)
    requires a < b && InertAll(t, pat, a, b)
    ensures InertAll(t, pat, a, b - 1) && InertFrom(t, pat(b - 1), 0)
    decreases b - a
  {
    if a < b - 1 {
      InertAllLast(t, pat, a + 1, b);
    }
  }

  lemma {:induction false} InertAllOf(t: string, pat: nat -> string, a: nat, b: nat)
    requires forall j :: a <= j < b ==> InertFrom(t, pat(j), 0)
    ensures InertAll(t, pat, a, b)
    decreases b - a
  {
    if a < b {
      InertAllOf(t, pat, a + 1, b);
    }
  }

  /** A piece in which no pattern can start goes through the chain unchanged,
      and what follows it goes through as if on its own. */
  lemma {:induction false} ChainPassThrough(t: string, rest: string, pat: nat -> string, rep: nat -> string, a: nat, b: nat)
    requires Searchable(pat, a, b) && InertAll(t, pat, a, b)
    ensures Chain(t + rest, pat, rep, a, b) == t + Chain(rest, pat, rep, a, b)
    decreases b
  {
    if b > a {
      InertAllLast(t, pat, a, b);
      ChainPassThrough(t, rest, pat, rep, a, b - 1);
      ReplaceAllInert(t, 0, Chain(rest, pat, rep, a, b - 1), pat(b - 1), rep(b - 1));
      assert t[0..] == t;
    }
  }

  /** A piece that is exactly pattern `h` is replaced by step `h` and then left
      alone, provided no earlier pattern starts in it and no later one starts in
      its replacement. */
  lemma {:induction false} ChainHit(t: string, rest: string, pat: nat -> string, rep: nat -> string, a: nat, h: nat, b: nat)
    requires Searchable(pat, a, b) && a <= h < b && t == pat(h)
    requires InertAll(t, pat, a, h) && InertAll(rep(h), pat, h + 1, b)
    ensures Chain(t + rest, pat, rep, a, b) == rep(h) + Chain(rest, pat, rep, a, b)
    decreases b
  {
    if b == h + 1 {
      ChainPassThrough(t, rest, pat, rep, a, h);
      ReplaceAllAtStart(Chain(rest, pat, rep, a, h), pat(h), rep(h));
    } else {
      InertAllLast(rep(h), pat, h + 1, b);
      ChainHit(t, rest, pat, rep, a, h, b - 1);
      ReplaceAllInert(rep(h), 0, Chain(rest, pat, rep, a, b - 1), pat(b - 1), rep(b - 1));
      assert rep(h)[0..] == rep(h);
    }
  }

  /** Splitting on a separator undoes joining with it, as long as no piece
      contains the separator. */
  lemma {:induction false} SplitJoin(xs: seq<string>, sep: char)
    requires xs != []
    requires forall i :: 0 <= i < |xs| ==> sep !in xs[i]
    ensures Split(Join(xs, [sep]), sep) == xs
    decreases |xs|
  {
    if |xs| == 1 {
      SplitPlain(xs[0], sep);
    } else {
      SplitJoin(xs[1..], sep);
      SplitAt(xs[0], Join(xs[1..], [sep]), sep);
      assert xs == [xs[0]] + xs[1..];
    }
  }

  lemma {:induction false} SplitPlain(s: string, sep: char)
    requires sep !in s
    ensures Split(s, sep) == [s]
    decreases |s|
  {
    if s != [] {
      SplitPlain(s[1..], sep);
      assert [s[0]] + s[1..] == s;
    }
  }

  /** The first separator ends the first piece. */
  lemma {:induction false} SplitAt(a: string, b: string, sep: char)
    requires sep !in a
    ensures Split(a + [sep] + b, sep) == [a] + Split(b, sep)
    decreases |a|
  {
    if a == [] {
      assert a + [sep] + b == [sep] + b;
      assert ([sep] + b)[1..] == b;
    } else {
      SplitAt(a[1..], b, sep);
      assert (a + [sep] + b)[1..] == a[1..] + [sep] + b;
      assert [a[0]] + a[1..] == a;
    }
  }
}
